=== FILE: README.md ===
# Spell checking HTML pages, and the HTML templating helpers

A model, in Dafny, of two pieces of a course-site repository:

- `html_spell.py`, an interactive spell checker for HTML pages. It reads the
  page line by line and skips `<code>` blocks. Each text fragment is split into
  words, and each word is classified: too short, possessive, not a word, or
  capitalised. Every remaining word whose lower-case form is in neither the
  known-word set nor the Oxford dictionary is put to the operator. The operator
  can add the word, skip it, edit the file (which restarts the scan) or close
  the checker. Approved words are appended to the custom dictionary at the end
  of the run, and the exit status reflects the `-e` flag.
- `pylib/html_tags.py`, the helpers that build HTML text: paragraphs,
  figures, details blocks, lists, images, the page head and the sidebar.

The model is organised the way the program is:

| module | models |
|---|---|
| `PyStr` | the parts of Python's `str` the program relies on: `split()`, `split(sep)`, `join`, `strip(string.punctuation)`, `lower()`, `in`, `*` |
| `Decimal` | `str(n)` and `'%d' % n` for integers, with a reading back |
| `TextLines` | text as newline-terminated lines, the shape every template produces |
| `Classifier` | `is_word`, `isPossessive` and the rule chain of `checkWord` |
| `Resolution` | the answer loop of `handle_bad_word` and the two word sets it changes |
| `Tokenizer` | `handle_data`: from a text fragment to the words checked |
| `Scanner` | `checkWord` with its effects, and the line loop of `spellCheckFile` with its `<code>` flag |
| `Dictionary` | loading the known-word set and appending the approved words |
| `Session` | a whole run: restarts after edits, the append, the exit status |
| `HtmlTags` | every helper of `pylib/html_tags.py` |

Some parts of a run are not computed by the model but passed in:

- the Oxford dictionary lookup is a predicate `oxford` (it stands for the HTTP request);
- the HTML parser is a function from a line to the text fragments it hands to `handle_data`;
- the operator's answers are a sequence of strings, and running out of them is the `EOFError` of `input()`;
- the editor is a function from the document, the word and the number of earlier edits to the edited document.

Each template helper is shown to produce exactly a given list of lines (for
`image`, one line). Splitting its output on newlines gives those lines back, so
the properties of the HTML text are properties of those lists.

## Model

| member | source | states |
|---|---|---|
| PyStr.Split | html_spell.py:167 | `data.split()` gives non-empty tokens without white space |
| PyStr.SplitKeepsText | html_spell.py:167 | gluing the tokens of `split()` back together gives the text with only its white space removed |
| PyStr.SplitAtSpace | html_spell.py:167 | a white-space character separates tokens: `split(a + sp + b) == split(a) + split(b)` |
| PyStr.SplitOfWord | html_spell.py:167 | a non-empty string without white space is a single token |
| PyStr.IndexOf | html_spell.py:176 | the first occurrence of the separator, with none before it |
| PyStr.SplitOn | html_spell.py:176 | `split('-')` gives at least one piece, and no piece contains the separator |
| PyStr.SplitOnSeparated | html_spell.py:175-176 | a token with a hyphen splits into at least two pieces |
| PyStr.JoinSplitOn | html_spell.py:176 | joining the pieces of `split(sep)` with `sep` gives the string back |
| PyStr.SplitOnJoin | html_spell.py:176 | splitting a join of separator-free pieces gives the pieces back |
| PyStr.SplitOnAfterPiece | html_spell.py:176 | a separator-free piece followed by the separator is split off as the first piece |
| PyStr.StripStart | html_spell.py:174 | `lstrip(string.punctuation)` removes a prefix made only of punctuation, and what remains does not start with punctuation |
| PyStr.StripEnd | html_spell.py:174 | `rstrip(string.punctuation)` removes a suffix made only of punctuation, and what remains does not end with punctuation |
| PyStr.StripPunctuation | html_spell.py:174 | `strip(string.punctuation)` keeps a middle part, with only punctuation cut from either side, and the part neither starts nor ends with punctuation |
| PyStr.StripPadded | html_spell.py:174 | a word padded with punctuation on both sides is stripped back to exactly the word |
| PyStr.StripPunctuationIdempotent | html_spell.py:174 | stripping twice gives the same as stripping once |
| PyStr.Lower | html_spell.py:153 | `lower()` maps each character and leaves no upper-case ASCII letter and no Kelvin sign |
| PyStr.LowerIdempotent | html_spell.py:153 | lower-casing twice gives the same as lower-casing once |
| PyStr.LowerOfLower | html_spell.py:215 | a string that is already lower case is unchanged by `lower()` |
| PyStr.Contains | html_spell.py:80-82 | `t in s` holds exactly when `t` occurs in `s` at some position |
| PyStr.Repeat | pylib/html_tags.py:28 | `s * n` is `n` copies of `s` in a row: it has `n * len(s)` characters, the character at `i` is `s[i % len(s)]`, and it is empty for `n <= 0` |
| PyStr.RepeatAdd | pylib/html_tags.py:4-5 | repetition counts add up |
| Decimal.NatToString | pylib/html_tags.py:31 | `str(n)` of a natural number is a non-empty run of digits with no leading zero |
| Decimal.IntToString | pylib/html_tags.py:31 | `str(n)` starts with a minus sign exactly when `n` is negative |
| Decimal.NatToStringRoundTrip | pylib/html_tags.py:31 | the digits of `str(n)` read back as `n` |
| Decimal.IntToStringRoundTrip | pylib/html_tags.py:96-97 | `str(n)` and `'%d' % n` read back as `n`, so the text determines the number |
| TextLines.LinesOfUnlines | pylib/html_tags.py:8-13 | text built from newline-free lines splits on newlines into those lines, followed by one empty piece |
| TextLines.UnlinesInjective | pylib/html_tags.py:8-13 | two line lists without newlines that give the same text are equal |
| TextLines.UnlinesAppend | pylib/html_tags.py:62-69 | the text of two line lists is the text of the first followed by the text of the second |
| Classifier.SearchNonWordChar | html_spell.py:54 | `re.search('[^a-zA-Z-\']', s)` finds the first character outside letters, hyphen and apostrophe, and finds none exactly when there is none |
| Classifier.IsWord | html_spell.py:54-55 | `is_word(s)` holds exactly when every character is a letter, a hyphen or an apostrophe |
| Classifier.IsPossessive | html_spell.py:138-139 | `isPossessive(w)` holds exactly when `w` ends with `'s` |
| Classifier.Classify | html_spell.py:141-155 | a word that reaches the lookup gives a form of at least two characters, each a lower-case letter, hyphen or apostrophe |
| Classifier.ClassifiedForm | html_spell.py:146-153 | the form looked up is the lower case of the word with its trailing `'s` suffixes removed |
| Classifier.LowerWordIsLookupForm | html_spell.py:148-153 | lower-casing a word of two or more word characters gives a form that can be looked up |
| Classifier.ShortWordsSkipped | html_spell.py:142-145 | the empty word and one-character words are never looked up |
| Classifier.PossessiveClassifiedAsBase | html_spell.py:146-147 | `w's` is classified exactly as `w` |
| Classifier.PossessiveStackClassifiedAsBase | html_spell.py:146-147 | any number of stacked `'s` suffixes are removed before classifying |
| Classifier.CapitalizedWords | html_spell.py:150-153 | a capitalised word is skipped outside strict mode and looked up in lower case in strict mode |
| Classifier.WordsReachLookup | html_spell.py:148-155 | a word of two or more letters, hyphens and apostrophes that is not possessive, and outside strict mode not capitalised, is looked up as its lower case |
| Classifier.NonWordsSkipped | html_spell.py:148-149 | a word containing a character other than letters, hyphen and apostrophe is never looked up |
| Resolution.ParseResponse | html_spell.py:116-130 | an answer is read as Add, Skip, Edit or Close exactly when it is that word or its first letter in any case, or that numeral exactly, and is rejected exactly when it is none of them; an accepted answer has one to five characters |
| Resolution.Pick | html_spell.py:116-130 | the comparison chain of the prompt loop, on the lower-cased answer and the answer as typed; what it accepts is stated by `ParseResponse` |
| Resolution.OneLetterAnswers | html_spell.py:116-128 | `a`, `s`, `e` and `c` are read as Add, Skip, Edit and Close |
| Resolution.ParseResponseIgnoresCase | html_spell.py:116-127 | an answer means the same as its lower-case form |
| Resolution.LowerNumeral | html_spell.py:116-127 | an answer lower-cases to a digit exactly when it is that digit |
| Resolution.AcceptedSpellings | html_spell.py:116-122 | `ADD`, `sKip` with the Kelvin sign, and `E` are accepted as Add, Skip and Edit |
| Resolution.RejectedSpellings | html_spell.py:129-130 | the empty answer, ` 1` and `5` are rejected |
| Resolution.Store.Approve | html_spell.py:116-118 | the Add answer puts the word into both the known set and the approved set, and adds nothing else |
| Resolution.Answer | html_spell.py:116-128 | an accepted answer has asked about the word once, passes on the answers after it, and leaves the sets alone or adds the word; `AnswerEffects` states each case |
| Resolution.FirstAnswer | html_spell.py:108-130 | finds the first answer the prompt accepts, with every earlier answer rejected, or reports that no answer is accepted |
| Resolution.Resolve | html_spell.py:98-130 | the word is asked about once; the word sets stay as they are or gain the word; the remaining answers are a suffix of those given; an edit consumes at least one answer |
| Resolution.ResolveByFirstAnswer | html_spell.py:108-130 | the first accepted answer decides the outcome, and with none the input runs out |
| Resolution.RejectedAnswersIgnored | html_spell.py:129-130 | rejected answers before the real ones change nothing |
| Resolution.AnswerEffects | html_spell.py:116-128 | Add puts the word into both sets; Skip changes nothing; Edit restarts on the word; Close stops the run |
| Tokenizer.TokenWords | html_spell.py:172-179 | a token with a hyphen gives at least two hyphen-free pieces that join back to it; a token without one gives one word, a cut of the token that neither starts nor ends with punctuation, so its punctuation is cut off |
| Tokenizer.TokensWords | html_spell.py:172-179 | a run of tokens gives at least as many words as it has tokens, and none of them contains white space |
| Tokenizer.FragmentWords | html_spell.py:167-179 | a template tag gives no words; any other fragment gives at least one word per token; `FragmentWordsAtSpace` states that these are the words of each token, in order |
| Tokenizer.FragmentWordsAtSpace | html_spell.py:167-179 | a fragment split at a white-space character, with neither it nor its parts a template tag, gives the words of the first part followed by those of the second, so each token is checked once, in the order it appears |
| Tokenizer.TokensWordsSingle | html_spell.py:172-179 | a single token gives exactly its own words |
| Tokenizer.TwoPaddedWords | html_spell.py:167-179 | two words, each followed by punctuation, with a space between them are checked as the two bare words, first to last |
| Tokenizer.TwoWordFragment | html_spell.py:167-179 | `Hello, world!` is checked as `Hello` then `world` |
| Tokenizer.FragmentsWords | html_spell.py:158-179 | the words of a line's fragments, none containing white space; `FragmentsWordsAppend` states their order |
| Tokenizer.FragmentsWordsAppend | html_spell.py:158-179 | the words of two runs of fragments are those of the first run followed by those of the second, so fragments are checked in the order the parser hands them over |
| Tokenizer.FragmentsWordsSingle | html_spell.py:158-179 | a single fragment gives exactly the words `handle_data` finds in it |
| Tokenizer.HyphenatedCompound | html_spell.py:175-177 | a hyphenated compound is checked piece by piece, exactly the pieces it was joined from |
| Tokenizer.PunctuatedWord | html_spell.py:174 | a token without hyphens is checked as the word inside its punctuation padding |
| Tokenizer.TokensWordsAppend | html_spell.py:172 | the words of two runs of tokens are the words of each run, in order |
| Tokenizer.HyphenKeepsPunctuation | html_spell.py:174-177 | `well-known,` is checked as `well` and `known,`, because the hyphen split ignores the stripped word |
| Tokenizer.TemplateTagSkipped | html_spell.py:169-170 | a fragment from `{%` to `%}` gives no words, whatever lies between |
| Scanner.CheckWord | html_spell.py:141-156 | the operator is asked about the lower-case form exactly when the word reaches the lookup and neither dictionary knows it; otherwise nothing happens |
| Scanner.CheckWordGrows | html_spell.py:155-156 | one check adds to the word sets only the lower-case form just asked about |
| Scanner.CheckWords | html_spell.py:172-179 | checking words one after the other consumes only a prefix of the answers |
| Scanner.CheckWordsGrows | html_spell.py:155-156 | over a run of words, the sets grow only by forms that were unknown when asked about |
| Scanner.CheckWordsAppend | html_spell.py:172-179 | checking two runs of words checks the first, then the second if the scan carries on |
| Scanner.CheckWordsAllKnown | html_spell.py:155 | when no word is unknown, nothing is asked and nothing changes |
| Scanner.SkippingAsksAboutEveryUnknown | html_spell.py:120-121 | if every answer is Skip, the operator is asked about exactly the unknown forms, in order, and the sets do not change |
| Scanner.ApprovedWordAskedOnce | html_spell.py:116-118 | after the operator adds a word, a later word with the same lookup form is not asked about again and changes nothing |
| Scanner.SkippedLineWords | html_spell.py:80-87 | a line holding `<code>` or `</code>`, or read while the code flag is on, adds no words to the scan |
| Scanner.PlainWordFile | html_spell.py:74-88 | a one-line file holding a word of two or more lower-case letters, handed over as it stands, is checked as that one word, looked up as itself |
| Scanner.CodeFlagOpenBlock | html_spell.py:80-84 | the code flag is on exactly when a line has opened a `<code>` block that no later line has closed |
| Scanner.ScanFrom | html_spell.py:79-88 | the line loop consumes only a prefix of the answers |
| Scanner.ScanFile | html_spell.py:74-88 | one pass over the file checks the words of the fed lines, in order, as one run |
| Scanner.ScanFromChecksFedWords | html_spell.py:79-88 | the line loop, from any line onward, checks exactly the words of the lines it feeds to the parser |
| Dictionary.FirstField | html_spell.py:215 | `line.split()[0]`, or nothing for a blank line; `LoadCustom` states what loading does with it |
| Dictionary.LoadCustom | html_spell.py:213-215 | reading the custom dictionary stops at the first blank line, with every earlier line non-blank; otherwise it gives the lower-cased first field of every line |
| Dictionary.LoadDictionary | html_spell.py:210-215 | the start-up word set is the structured dictionary's keys plus the custom words, and loading fails exactly when some custom line is blank |
| Dictionary.AppendedLines | html_spell.py:222-223 | one line per approved word, the word followed by a newline |
| Dictionary.LoadCustomAppend | html_spell.py:213-215 | reading two blocks of lines gives the words of both |
| Dictionary.LoadAppendedLines | html_spell.py:222-223 | the appended lines read back as exactly the approved words |
| Dictionary.ReloadAfterAppend | html_spell.py:210-224 | loading the dictionary after the append gives the old word set plus the approved words |
| Dictionary.ReloadWithExtraLines | html_spell.py:213-215 | extra non-blank custom lines add exactly their own words to the loaded set |
| Session.Settle | html_spell.py:89-90 | the rescans after edits end with a signal other than restart, consuming only a prefix of the answers |
| Session.EditedDocumentRescanned | html_spell.py:89-90 | after an edit the edited file is scanned again from its first line, with the word sets and answers the edited pass left and the edit count one higher; the prompts are those of the edited pass followed by those of the rescans; a pass without an edit ends the run |
| Session.SettleGrows | html_spell.py:89-90 | across edits and rescans the sets grow only by approvals of forms that were unknown |
| Session.RunSession | html_spell.py:204-229 | a finished run exits with `SPELL_ERROR` under `-e` and 0 otherwise; a closed run exits 0; a crash exits 1; only finished runs append words; the run crashes on the dictionary exactly when a custom line is blank |
| Session.RunSessionFollowsScan | html_spell.py:204-229 | once the dictionaries load, the run is closed by the operator exactly when a pass read `close`, crashes on the end of input exactly when the answers ran out, and finishes exactly when the passes went on to the end, appending exactly the approved words |
| Session.FinishedRun | html_spell.py:222-229 | a run whose passes went on to the end finishes, appends what they approved, and exits according to `-e` |
| Session.EmptyCustomDictionary | html_spell.py:210-215 | without custom lines the known words are the structured dictionary's keys |
| Session.ApprovedWordsWereUnknown | html_spell.py:116-118 | every appended word was unknown to both dictionaries when it was approved, and can be looked up |
| Session.PromptedFormsWereUnknown | html_spell.py:155-156 | every form the operator was asked about was unknown to both dictionaries |
| Session.ApprovedWordsPersist | html_spell.py:222-224 | a later run loads the old word set plus everything this run appended, in whatever order the lines were written |
| Session.CleanFileFinishes | html_spell.py:226-229 | a file with no unknown word finishes without a prompt, appends nothing, and exits according to `-e` |
| Session.UnknownWordAdded | html_spell.py:116-119 | a one-line file holding an unknown plain word, answered `a`, asks about it once, appends it and finishes |
| Session.EditedUntilFixed | html_spell.py:122-126 | the same file answered `e` twice, with an editor that first changes nothing and then writes the known spelling: the word is asked about twice, nothing is appended, and the run finishes |
| Session.AddedWordAppended | html_spell.py:116-119 | `helo` in an empty dictionary, answered `a`, is appended and the run exits 0 without `-e` |
| Session.EditThenFixed | html_spell.py:122-126 | `helo` with `hello` known, edited twice, the second time into `hello`: asked about twice, nothing appended |
| HtmlTags.IndentShape | pylib/html_tags.py:3-5 | one indent unit is four spaces, and the larger units are two and four of it |
| HtmlTags.LevelIndent | pylib/html_tags.py:28 | the indent at a level extends the base by four spaces per level above the first, and a level of 1 or less leaves the base alone |
| HtmlTags.Par | pylib/html_tags.py:8-13 | `par`; its lines are stated by `ParLines` and `ParAsLines` |
| HtmlTags.ParLines | pylib/html_tags.py:8-13 | a paragraph is the opening tag, then its text when there is one, then the closing tag, each on its own indented line |
| HtmlTags.ParAsLines | pylib/html_tags.py:8-13 | the paragraph text is exactly the text of its line list |
| HtmlTags.Figure | pylib/html_tags.py:15-24 | `figure`; its lines are stated by `FigureLines` and `FigureAsLines` |
| HtmlTags.FigureLines | pylib/html_tags.py:15-24 | a figure is its tags, the quoted image line and the caption when there is one, each on its own line |
| HtmlTags.FigureAsLines | pylib/html_tags.py:15-24 | the figure text is exactly the text of its line list |
| HtmlTags.SummaryClass | pylib/html_tags.py:31 | the summary class starts with `sum` and has at least one character after it |
| HtmlTags.SummaryClassLevel | pylib/html_tags.py:31 | the class name gives the level back, so summaries at different levels get different classes |
| HtmlTags.Details | pylib/html_tags.py:26-41 | `details`; its lines are stated by `DetailsLines` and `DetailsAsLines` |
| HtmlTags.DetailsLines | pylib/html_tags.py:26-41 | a details block is the summary lines, then the figure, the paragraph and the nested block when asked for, then the closing tag |
| HtmlTags.DetailsAsLines | pylib/html_tags.py:26-41 | the details text is exactly the text of its line list |
| HtmlTags.ItemLines | pylib/html_tags.py:62-69 | each item gives three lines: `<li>`, the item, `</li>`, all at the inner indent |
| HtmlTags.ListItemsAsLines | pylib/html_tags.py:62-69 | the item blocks are exactly the text of the item lines |
| HtmlTags.ListItemsAppend | pylib/html_tags.py:62-69 | the blocks for two runs of items are the blocks of each run, in order |
| HtmlTags.HtmlList | pylib/html_tags.py:53-71 | `html_list`; its lines are stated by `HtmlListLines` and `HtmlListAsLines` |
| HtmlTags.HtmlListLines | pylib/html_tags.py:53-71 | a list is its opening tag, with a class exactly when one is given, then three lines per item, then the closing tag |
| HtmlTags.HtmlListAsLines | pylib/html_tags.py:53-71 | the list text is exactly the text of its line list |
| HtmlTags.Ulist | pylib/html_tags.py:43-46 | `ulist` as written; `UlistIsOlist` states that it equals `olist` |
| HtmlTags.Olist | pylib/html_tags.py:48-51 | `olist`, an `html_list` of type `ol`; its lines are those `HtmlListLines` states |
| HtmlTags.UlistIsOlist | pylib/html_tags.py:43-51 | as written, `ulist` gives the same text as `olist`, and its first line opens an `ol` |
| HtmlTags.UlistIntendedUnordered | pylib/html_tags.py:43-46 | with `ul` passed, the list opens with `u` where `olist` has `o`, so the two differ |
| HtmlTags.Image | pylib/html_tags.py:73-75 | `image` as written; `ImageLines` states its one line and `ImageRunsTogether` what it loses |
| HtmlTags.ImageLines | pylib/html_tags.py:73-75 | the image text is exactly one line, the `<img` tag |
| HtmlTags.ImageRunsTogether | pylib/html_tags.py:73-75 | as written, `src="a"` with `alt="alt=b"` gives the same tag as `src="aalt="` with `alt="b"`, and the unquoted `src` value, read up to the first `>` or white space, is `aalt=b` |
| HtmlTags.ImageSrcReadBack | pylib/html_tags.py:73-75 | with a space before `alt=`, a `src` without `>` and white space reads back exactly |
| HtmlTags.ImageSeparatedInjective | pylib/html_tags.py:73-75 | with the space, the tag determines `src` and `alt`, for `src` values without `>` and white space |
| HtmlTags.Head | pylib/html_tags.py:77-85 | `head`; its lines are stated by `HeadLines` and `HeadAsLines` |
| HtmlTags.HeadLines | pylib/html_tags.py:77-85 | the head is the title between its tags after an empty line, then the stylesheet link when one is given; the indent argument plays no part |
| HtmlTags.HeadAsLines | pylib/html_tags.py:77-85 | the head text is exactly the text of its line list |
| HtmlTags.SidebarLinks | pylib/html_tags.py:90-103 | `sidebar_links`; its lines are stated by `SidebarLinksLines` and `SidebarLinksAsLines` |
| HtmlTags.SidebarLinksLines | pylib/html_tags.py:90-103 | a sidebar entry is the item tag, the anchor, the icon when there is one, the title and the closing tags |
| HtmlTags.SidebarLinksAsLines | pylib/html_tags.py:90-103 | the sidebar entry text is exactly the text of its line list |
| HtmlTags.SubmenuAnchorNumber | pylib/html_tags.py:96-97 | the number in a submenu anchor reads back as `tot_submenus` |
| HtmlTags.Sidebar | pylib/html_tags.py:105-115 | `sidebar`; its lines are stated by `SidebarLines` and `SidebarAsLines` |
| HtmlTags.SidebarLines | pylib/html_tags.py:105-115 | the sidebar is the fixed header lines, the menu text's lines unchanged, then `</nav>` |
| HtmlTags.SidebarAsLines | pylib/html_tags.py:105-115 | the sidebar text is exactly the text of its line list |

## Left out

- `url_checker.py` is not part of this model.
- The HTML parser (`HTMLParser.feed`, its buffering, character references and tag handling) is not modelled. It is a parameter from a line to the text fragments handed to `handle_data`.
- `isWordInOxfordDictionary` performs an HTTP request. It is the predicate `oxford`, and network failures are not modelled.
- `json.load` of the structured dictionary is not modelled. Only its set of keys is a parameter.
- File I/O is left out: the file and the custom dictionary are sequences of lines. The text-level append is modelled as extra lines. The case where the dictionary file does not end in a newline, so the first appended word merges with its last line, is not modelled.
- The `vimdiff` call and `line_num` are left out. The edit is a function from the document, the word and the number of earlier edits to the new document.
- Session.Settle: each restart after an edit is a recursive call of `spellCheckFile` (html_spell.py:89-90), so in Python roughly a thousand edits in one run end in `RecursionError` and exit status 1. The model allows any number of edits, because the recursion limit is a property of the interpreter rather than of the program.
- `check_files_exist`, `argparse` and the prompt and error messages (`print`) are left out, because they are outside the checking logic.
- PyStr.Lower: lower-cases ASCII letters and the Kelvin sign only, which are the only characters whose lower case is an ASCII letter. Other non-ASCII letters are left as they are, which differs from Python only for words that can never reach the lookup.
- `ulist` or `html_list` with `l=None`, and `sidebar_links` with `topic=None`, raise `TypeError` or `AttributeError` in Python. They are not modelled: the items are a sequence and the topic is a value.
- HtmlTags.SidebarLinks: `topic.glyphicon` is a string, and the icon line appears exactly when it is non-empty. A glyphicon of `None` or of another falsy value is not modelled.
- Classifier.Classify: `word is ""` is modelled as equality with the empty string, which is the behaviour CPython shows for interned empty strings.
- Tokenizer.TokenWords: the `.strip()` after the punctuation strip is not modelled separately. A token from `split()` has no white space, so it removes nothing.
- The text for `<code>` lines follows the code: a line containing `<code>` sets the flag before the feed test, so that line itself is not checked, and a line containing `</code>` is never checked.
- `added_words.clear()` after the append has no effect on what a run does, and is not modelled.

## Findings

| source | as written | input that shows it | evidently intended | confidence | as-written member | corrected member |
|---|---|---|---|---|---|---|
| pylib/html_tags.py:43-46 | `ulist` passes `list_type='ol'`, so it builds an ordered list exactly like `olist` | any arguments: `ulist(l=["x"])` opens with `<ol>` | `ulist` builds an unordered list, `list_type='ul'`, the default of `html_list` | not executed | HtmlTags.UlistIsOlist | HtmlTags.UlistIntendedUnordered |
| pylib/html_tags.py:73-75 | `image` writes `"<img src=" + src + "alt="` with no space, so the `src` value runs into the `alt` attribute | `src="a"`, `alt="alt=b"` and `src="aalt="`, `alt="b"` give the same tag, and `src` reads as `aalt=b` | a space before `alt=`, so that `src` and `alt` are separate attributes | not executed | HtmlTags.ImageRunsTogether | HtmlTags.ImageSrcReadBack |

=== FILE: classifier.dfy ===
/** The word classifier of html_spell.py: `is_word`, `isPossessive` and
    the short-circuiting rule chain at the head of `checkWord`, which
    decides whether a word is skipped silently or looked up, and under
    which (lower-case) form. */
module Classifier {
  import opened Optional
  import opened PyStr

  /** Characters outside the pattern class `[^a-zA-Z-']`, i.e. the ones
      a word may consist of. */
  predicate IsWordChar(c: char) {
    'a' <= c <= 'z' || 'A' <= c <= 'Z' || c == '-' || c == '\''
  }

  /** `re.search('[^a-zA-Z-\']', s)`: the position of the first character
      the pattern matches, or None. */
  function SearchNonWordChar(s: string): (r: Option<nat>)
    ensures r.Some? ==> r.value < |s| && !IsWordChar(s[r.value])
    ensures r.Some? ==> forall k :: 0 <= k < r.value ==> IsWordChar(s[k])
    ensures r.None? <==> forall k :: 0 <= k < |s| ==> IsWordChar(s[k])
  {
    if |s| == 0 then None
    else if !IsWordChar(s[0]) then Some(0)
    else match SearchNonWordChar(s[1..])
      case None => None
      case Some(k) => Some(k + 1)
  }

  /** `is_word(s)`: no character of `s` is outside letters, `-` and `'`.
      The empty string is a word. */
  function IsWord(s: string): (b: bool)
    ensures b <==> forall k :: 0 <= k < |s| ==> IsWordChar(s[k])
  {
    SearchNonWordChar(s).None?
  }

  /** Python's `s[k:]` for any integer `k`: a negative start counts from
      the end and is clamped at 0. */
  function SliceFrom(s: string, k: int): string {
    if k < 0 then (if |s| + k < 0 then s else s[|s| + k..])
    else if k > |s| then ""
    else s[k..]
  }

  /** `isPossessive(word)`: `"'s" == word[len(word)-2:]`, which for the
      one- and zero-character words holds for none. */
  function IsPossessive(w: string): (b: bool)
    ensures b <==> |w| >= 2 && w[|w| - 2] == '\'' && w[|w| - 1] == 's'
  {
    "'s" == SliceFrom(w, |w| - 2)
  }

  /** A form that can reach the dictionary lookup: at least two
      characters, only lower-case letters, `-` and `'`. */
  predicate IsLookupForm(w: string) {
    |w| >= 2 && forall k :: 0 <= k < |w| ==> 'a' <= w[k] <= 'z' || w[k] == '-' || w[k] == '\''
  }

  /** `t` is a run of zero or more `'s` suffixes. */
  predicate PossessiveTail(t: string)
    decreases |t|
  {
    t == "" || (|t| >= 2 && t[|t| - 2..] == "'s" && PossessiveTail(t[..|t| - 2]))
  }

  /** The rule chain of `checkWord` up to the lookup: None when the word
      is dropped without lookup or prompt, Some(lower-case form) when it
      goes on to the dictionary. */
  function Classify(w: string, strict: bool): (r: Option<string>)
    ensures r.Some? ==> IsLookupForm(r.value)
    decreases |w|
  {
    if w == "" then None
    else if |w| == 1 then None
    else if IsPossessive(w) then Classify(w[..|w| - 2], strict)
    else if !IsWord(w) then None
    else if !strict && IsUpperAscii(w[0]) then None
    else
      LowerWordIsLookupForm(w);
      Some(Lower(w))
  }

  /** The form looked up is the lower-case of the word with its trailing
      `'s` suffixes removed. */
  lemma {:induction false} ClassifiedForm(w: string, strict: bool)
    requires Classify(w, strict).Some?
    ensures var f := Classify(w, strict).value;
            |f| <= |w| && f == Lower(w[..|f|]) && PossessiveTail(w[|f|..])
    decreases |w|
  {
    if IsPossessive(w) {
      var v := w[..|w| - 2];
      ClassifiedForm(v, strict);
      ExtendTail(w, |Classify(v, strict).value|);
    } else {
      assert w[..|w|] == w && w[|w|..] == "";
    }
  }

  lemma ExtendTail(w: string, n: nat)
    requires |w| >= 2 && w[|w| - 2..] == "'s" && n <= |w| - 2
    requires PossessiveTail(w[..|w| - 2][n..])
    ensures w[..n] == w[..|w| - 2][..n]
    ensures PossessiveTail(w[n..])
  {
    var t := w[n..];
    assert t[..|t| - 2] == w[..|w| - 2][n..];
    assert t[|t| - 2..] == w[|w| - 2..];
  }

  lemma LowerWordIsLookupForm(w: string)
    requires |w| >= 2 && forall k :: 0 <= k < |w| ==> IsWordChar(w[k])
    ensures IsLookupForm(Lower(w))
  {
    var l := Lower(w);
    forall k | 0 <= k < |w|
      ensures 'a' <= l[k] <= 'z' || l[k] == '-' || l[k] == '\''
    {
      assert l[k] == LowerChar(w[k]);
    }
  }

  /** `checkWord` returns at once for the empty word and for every
      one-character word: no lookup, no prompt. */
  lemma ShortWordsSkipped(w: string, strict: bool)
    requires |w| <= 1
    ensures Classify(w, strict) == None
  {
  }

  /** A trailing `'s` is removed before anything else is examined, so a
      possessive is classified exactly as the word it is built on;
      `"'s"` itself reduces to the empty word. */
  lemma PossessiveClassifiedAsBase(w: string, strict: bool)
    ensures Classify(w + "'s", strict) == Classify(w, strict)
  {
    var v := w + "'s";
    assert v[|v| - 2] == '\'' && v[|v| - 1] == 's';
    assert IsPossessive(v);
    assert v[..|v| - 2] == w;
  }

  lemma {:induction false} PossessiveStep(v: string, t: string, strict: bool)
    requires v == t + "'s"
    ensures Classify(v, strict) == Classify(t, strict)
  {
    PossessiveClassifiedAsBase(t, strict);
  }

  /** `k` copies of the `'s` suffix. */
  function Possessives(k: nat): string {
    if k == 0 then "" else Possessives(k - 1) + "'s"
  }

  /** Any number of stacked `'s` suffixes are removed. */
  lemma {:induction false} PossessiveStackClassifiedAsBase(w: string, k: nat, strict: bool)
    ensures Classify(w + Possessives(k), strict) == Classify(w, strict)
    decreases k
  {
    if k == 0 {
      StackBase(w, k, strict);
    } else {
      var j := k - 1;
      PossessiveStackClassifiedAsBase(w, j, strict);
      StackStep(w, j, strict);
    }
  }

  lemma {:induction false} StackBase(w: string, k: nat, strict: bool)
    requires k == 0
    ensures Classify(w + Possessives(k), strict) == Classify(w, strict)
  {
    assert w + Possessives(k) == w;
  }

  lemma {:induction false} PossessivesUnfold(w: string, k: nat)
    requires k > 0
    ensures w + Possessives(k) == (w + Possessives(k - 1)) + "'s"
  {
  }

  lemma {:induction false} StackStep(w: string, j: nat, strict: bool)
    requires Classify(w + Possessives(j), strict) == Classify(w, strict)
    ensures Classify(w + Possessives(j + 1), strict) == Classify(w, strict)
  {
    var t := w + Possessives(j);
    PossessivesUnfold(w, j + 1);
    PossessiveStep(w + Possessives(j + 1), t, strict);
  }

  /** Capitalisation policy: outside strict mode a non-possessive word
      that passes `is_word` and starts with `A`-`Z` is dropped without a
      lookup; in strict mode it is looked up in lower case. */
  lemma CapitalizedWords(w: string, strict: bool)
    requires |w| >= 2 && !IsPossessive(w) && IsWord(w) && IsUpperAscii(w[0])
    ensures !strict ==> Classify(w, strict) == None
    ensures strict ==> Classify(w, strict) == Some(Lower(w))
  {
  }

  /** The lookup itself: a word of two or more characters that is not
      possessive, passes `is_word`, and is not a capitalised word outside
      strict mode goes to the dictionaries as its lower-case form. */
  lemma WordsReachLookup(w: string, strict: bool)
    requires |w| >= 2 && !IsPossessive(w) && IsWord(w) && (strict || !IsUpperAscii(w[0]))
    ensures Classify(w, strict) == Some(Lower(w))
  {
  }

  /** A word with a character other than letters, `-` and `'` (after its
      `'s` suffixes are removed) is dropped without a lookup. */
  lemma NonWordsSkipped(w: string, strict: bool)
    requires |w| >= 2 && !IsPossessive(w)
    requires exists k :: 0 <= k < |w| && !IsWordChar(w[k])
    ensures Classify(w, strict) == None
  {
  }
}

=== FILE: decimal.dfy ===
/** Python's `str(n)` and `'%d' % n` for an integer: optional minus sign,
    then decimal digits without leading zeros. */
module Decimal {

  predicate IsDigit(c: char) {
    '0' <= c <= '9'
  }

  function DigitChar(d: nat): (c: char)
    requires d < 10
    ensures IsDigit(c) && (c as int) - ('0' as int) == d
  {
    "0123456789"[d]
  }

  /** Decimal digits of `n`, most significant first. */
  function NatToString(n: nat): (r: string)
    ensures |r| >= 1
    ensures forall i :: 0 <= i < |r| ==> IsDigit(r[i])
    ensures r[0] == '0' ==> n == 0
    decreases n
  {
    if n < 10 then [DigitChar(n)] else NatToString(n / 10) + [DigitChar(n % 10)]
  }

  /** Python's `str(n)`. */
  function IntToString(n: int): (r: string)
    ensures |r| >= 1
    ensures r[0] == '-' <==> n < 0
  {
    if n < 0 then "-" + NatToString(-n) else NatToString(n)
  }

  /** The value of a string of decimal digits (an independent reading of
      the text, least significant digit last). */
  function DigitsValue(s: string): int
    requires forall i :: 0 <= i < |s| ==> IsDigit(s[i])
  {
    if |s| == 0 then 0
    else 10 * DigitsValue(s[..|s| - 1]) + ((s[|s| - 1] as int) - ('0' as int))
  }

  /** Reading back an optional minus sign and digits. */
  function ParseInt(s: string): (r: int)
    requires |s| >= 1
    requires s[0] == '-' ==> |s| >= 2
    requires forall i :: (if s[0] == '-' then 1 else 0) <= i < |s| ==> IsDigit(s[i])
  {
    if s[0] == '-' then -DigitsValue(s[1..]) else DigitsValue(s)
  }

  /** Reading the digits of `n` gives `n` back. */
  lemma {:induction false} NatToStringRoundTrip(n: nat)
    ensures DigitsValue(NatToString(n)) == n
    decreases n
  {
    var r := NatToString(n);
    if n >= 10 {
      NatToStringRoundTrip(n / 10);
      assert r[..|r| - 1] == NatToString(n / 10);
    }
  }

  /** `str` is injective on integers: the text determines the number. */
  lemma {:induction false} IntToStringRoundTrip(n: int)
    ensures ParseInt(IntToString(n)) == n
  {
    if n < 0 {
      NatToStringRoundTrip(-n);
      assert IntToString(n)[1..] == NatToString(-n);
    } else {
      NatToStringRoundTrip(n);
    }
  }
}

=== FILE: dictionary.dfy ===
/** Building the known-word set at start-up (html_spell.py:210-215) and
    the lines appended to the custom dictionary at session end
    (html_spell.py:222-224). The structured dictionary is taken as the
    set of its top-level keys; the custom dictionary as its lines. */
module Dictionary {
  import opened Optional
  import opened PyStr
  import Classifier

  /** The result of reading the custom dictionary: the lower-cased first
      fields, or the index of the first blank line, where
      `line.split()[0]` raises IndexError and the program stops. */
  datatype Loaded = Loaded(words: set<string>) | BlankLine(index: nat)

  /** `line.split()[0]`, or None for a blank line. */
  function FirstField(line: string): Option<string> {
    var fields := Split(line);
    if |fields| == 0 then None else Some(fields[0])
  }

  /** The words a custom dictionary without blank lines contributes. */
  function CustomWords(lines: seq<string>): set<string> {
    set i | 0 <= i < |lines| && FirstField(lines[i]).Some? :: Lower(FirstField(lines[i]).value)
  }

  /** Reads the custom dictionary lines in order, stopping at the first
      blank line. */
  function LoadCustom(lines: seq<string>): (r: Loaded)
    ensures r.BlankLine? ==> r.index < |lines| && FirstField(lines[r.index]).None?
    ensures r.BlankLine? ==> forall j :: 0 <= j < r.index ==> FirstField(lines[j]).Some?
    ensures r.Loaded? ==> forall i :: 0 <= i < |lines| ==> FirstField(lines[i]).Some?
    ensures r.Loaded? ==> r.words == CustomWords(lines)
    decreases |lines|
  {
    if |lines| == 0 then Loaded({})
    else match FirstField(lines[0])
      case None => BlankLine(0)
      case Some(field) =>
        match LoadCustom(lines[1..])
        case BlankLine(i) => BlankLine(i + 1)
        case Loaded(ws) =>
          CustomWordsCons(lines);
          Loaded({Lower(field)} + ws)
  }

  lemma CustomWordsCons(lines: seq<string>)
    requires |lines| > 0 && FirstField(lines[0]).Some?
    ensures CustomWords(lines) == {Lower(FirstField(lines[0]).value)} + CustomWords(lines[1..])
  {
    var tail := lines[1..];
    forall x | x in CustomWords(tail) ensures x in CustomWords(lines) {
      var j :| 0 <= j < |tail| && FirstField(tail[j]).Some? && x == Lower(FirstField(tail[j]).value);
      assert lines[j + 1] == tail[j];
    }
    forall x | x in CustomWords(lines) && x != Lower(FirstField(lines[0]).value)
      ensures x in CustomWords(tail)
    {
      var j :| 0 <= j < |lines| && FirstField(lines[j]).Some? && x == Lower(FirstField(lines[j]).value);
      assert j > 0;
      assert tail[j - 1] == lines[j];
    }
  }

  /** `word_set` at start-up: the structured dictionary's keys unioned
      with the custom dictionary's words; a blank custom line stops the
      program before any scanning. */
  function LoadDictionary(keys: set<string>, custom: seq<string>): (r: Loaded)
    ensures r.BlankLine? <==> exists i :: 0 <= i < |custom| && FirstField(custom[i]).None?
    ensures r.Loaded? ==> r.words == keys + CustomWords(custom)
  {
    match LoadCustom(custom)
    case BlankLine(i) => BlankLine(i)
    case Loaded(ws) => Loaded(keys + ws)
  }

  /** The lines `f.writelines(i + '\n' for i in added_words)` appends,
      for one iteration order of the set. */
  function AppendedLines(order: seq<string>): (r: seq<string>)
    ensures |r| == |order|
    ensures forall k :: 0 <= k < |r| ==> r[k] == order[k] + "\n"
  {
    if |order| == 0 then [] else [order[0] + "\n"] + AppendedLines(order[1..])
  }

  /** The custom dictionary is read line by line, so reading two blocks
      of lines one after the other gives the union. */
  lemma LoadCustomAppend(a: seq<string>, b: seq<string>)
    requires LoadCustom(a).Loaded? && LoadCustom(b).Loaded?
    ensures LoadCustom(a + b) == Loaded(LoadCustom(a).words + LoadCustom(b).words)
  {
    var ab := a + b;
    forall i | 0 <= i < |ab| ensures FirstField(ab[i]).Some? {
      if i < |a| {
        assert ab[i] == a[i];
      } else {
        assert ab[i] == b[i - |a|];
      }
    }
    CustomWordsAppend(a, b);
  }

  lemma CustomWordsAppend(a: seq<string>, b: seq<string>)
    ensures CustomWords(a + b) == CustomWords(a) + CustomWords(b)
  {
    var ab := a + b;
    forall x | x in CustomWords(ab) ensures x in CustomWords(a) + CustomWords(b) {
      var i :| 0 <= i < |ab| && FirstField(ab[i]).Some? && x == Lower(FirstField(ab[i]).value);
      if i < |a| {
        assert ab[i] == a[i];
      } else {
        assert ab[i] == b[i - |a|];
      }
    }
    forall x | x in CustomWords(a) ensures x in CustomWords(ab) {
      var i :| 0 <= i < |a| && FirstField(a[i]).Some? && x == Lower(FirstField(a[i]).value);
      assert ab[i] == a[i];
    }
    forall x | x in CustomWords(b) ensures x in CustomWords(ab) {
      var i :| 0 <= i < |b| && FirstField(b[i]).Some? && x == Lower(FirstField(b[i]).value);
      assert ab[i + |a|] == b[i];
    }
  }

  /** A line written for an approved word reads back as that word. */
  lemma LineWordOfAppended(w: string)
    requires Classifier.IsLookupForm(w)
    ensures FirstField(w + "\n") == Some(w) && Lower(w) == w
  {
    var sp := '\n';
    assert NoSpace(w);
    SplitAtSpace(w, sp, "");
    assert w + [sp] + "" == w + "\n";
    SplitOfWord(w);
    LowerOfLower(w);
  }

  /** Reading back the lines appended for approved words gives exactly
      those words. */
  lemma LoadAppendedLines(order: seq<string>)
    requires forall k :: 0 <= k < |order| ==> Classifier.IsLookupForm(order[k])
    ensures LoadCustom(AppendedLines(order)) == Loaded(set k | 0 <= k < |order| :: order[k])
  {
    var lines := AppendedLines(order);
    AppendedFields(order);
    CustomWordsOfFields(lines, order);
    SetOfLowered(order);
    assert LoadCustom(lines).Loaded?;
  }

  lemma AppendedFields(order: seq<string>)
    requires forall k :: 0 <= k < |order| ==> Classifier.IsLookupForm(order[k])
    ensures forall k :: 0 <= k < |order| ==> FirstField(AppendedLines(order)[k]) == Some(order[k])
    ensures forall k :: 0 <= k < |order| ==> Lower(order[k]) == order[k]
  {
    forall k | 0 <= k < |order|
      ensures FirstField(AppendedLines(order)[k]) == Some(order[k]) && Lower(order[k]) == order[k]
    {
      LineWordOfAppended(order[k]);
    }
  }

  lemma CustomWordsOfFields(lines: seq<string>, fields: seq<string>)
    requires |lines| == |fields|
    requires forall k :: 0 <= k < |fields| ==> FirstField(lines[k]) == Some(fields[k])
    ensures CustomWords(lines) == set k | 0 <= k < |fields| :: Lower(fields[k])
  {
    var target := set k | 0 <= k < |fields| :: Lower(fields[k]);
    forall x | x in CustomWords(lines) ensures x in target {
      var k :| 0 <= k < |lines| && FirstField(lines[k]).Some? && x == Lower(FirstField(lines[k]).value);
      assert Lower(fields[k]) == x;
    }
    forall x | x in target ensures x in CustomWords(lines) {
      var k :| 0 <= k < |fields| && Lower(fields[k]) == x;
      assert FirstField(lines[k]) == Some(fields[k]);
    }
  }

  lemma SetOfLowered(words: seq<string>)
    requires forall k :: 0 <= k < |words| ==> Lower(words[k]) == words[k]
    ensures (set k | 0 <= k < |words| :: Lower(words[k])) == set k | 0 <= k < |words| :: words[k]
  {
  }

  /** Appending the approved words, in any order, and loading again gives
      the old word set plus exactly the approved words: an approved word
      is known to every later session. */
  lemma ReloadAfterAppend(keys: set<string>, custom: seq<string>, order: seq<string>)
    requires LoadDictionary(keys, custom).Loaded?
    requires forall k :: 0 <= k < |order| ==> Classifier.IsLookupForm(order[k])
    ensures LoadDictionary(keys, custom + AppendedLines(order))
         == Loaded(LoadDictionary(keys, custom).words + (set k | 0 <= k < |order| :: order[k]))
  {
    LoadAppendedLines(order);
    ReloadWithExtraLines(keys, custom, AppendedLines(order), set k | 0 <= k < |order| :: order[k]);
  }

  lemma ReloadWithExtraLines(keys: set<string>, custom: seq<string>, extra: seq<string>, words: set<string>)
    requires LoadDictionary(keys, custom).Loaded?
    requires LoadCustom(extra) == Loaded(words)
    ensures LoadDictionary(keys, custom + extra) == Loaded(LoadDictionary(keys, custom).words + words)
  {
    assert LoadCustom(custom).Loaded?;
    LoadCustomAppend(custom, extra);
  }
}

=== FILE: html_tags.dfy ===
/** The HTML templating helpers of pylib/html_tags.py. Each helper builds a
    block of newline-terminated lines from its arguments; it is written
    here as the concatenation the source performs, one `Line` per
    `'...\n'` it appends, and paired with the list of lines a reader of
    the block sees, which `SplitOn(_, '\n')` recovers. Python's `None`
    arguments are `Option`s. */
module HtmlTags {
  import opened Optional
  import opened PyStr
  import opened Decimal
  import opened TextLines

  /** The indentation units. */
  const Indent1: string := "    "
  const Indent2: string := Indent1 + Indent1
  const Indent4: string := Indent2 + Indent2

  /** One unit is four spaces; the larger units are two and four of it. */
  lemma IndentShape()
    ensures Indent1 == Repeat(" ", 4)
    ensures Indent2 == Repeat(Indent1, 2) && Indent4 == Repeat(Indent1, 4)
    ensures Indent4 == Repeat(" ", 16)
  {
    RepeatAdd(Indent1, 2, 2);
    RepeatAdd(" ", 4, 4);
    RepeatAdd(" ", 8, 8);
  }

  /** `indent + INDENT1 * (level - 1)`: a block at `level` is indented by
      one more unit per level above 1, and by `indent` alone at every
      level up to 1. */
  function LevelIndent(indent: string, level: int): (r: string)
    ensures StartsWith(r, indent)
    ensures level <= 1 ==> r == indent
    ensures |r| == |indent| + 4 * (if level <= 1 then 0 else level - 1)
    ensures forall i :: |indent| <= i < |r| ==> r[i] == ' '
  {
    indent + Repeat(Indent1, level - 1)
  }

  lemma LevelIndentNoNewline(indent: string, level: int)
    requires NoNewline(indent)
    ensures NoNewline(LevelIndent(indent, level)) && NoNewline(LevelIndent(indent, level) + Indent1)
  {
    var r := LevelIndent(indent, level);
    forall i | 0 <= i < |r| ensures r[i] != '\n' {
      if i < |indent| {
        assert r[i] == indent[i];
      }
    }
  }

  /** The one line of an optional argument, or none. */
  function OptLines(o: Option<string>): (ls: seq<string>)
    ensures |ls| == if o.Some? then 1 else 0
  {
    if o.Some? then [o.value] else []
  }

  // ---------------------------------------------------------------- par

  /** `par(text, indent)`. */
  function Par(text: Option<string>, indent: string): string {
    Line(indent + "<p>")
    + (if text.Some? then Line(text.value) else "")
    + Line(indent + "</p>")
  }

  /** The lines of a paragraph: the tags, and the text between them
      exactly when there is text. */
  function ParLineList(text: Option<string>, indent: string): seq<string> {
    [indent + "<p>"] + OptLines(text) + [indent + "</p>"]
  }

  lemma ParAsLines(text: Option<string>, indent: string)
    ensures Par(text, indent) == Unlines(ParLineList(text, indent))
  {
    UnlinesAppend3([indent + "<p>"], OptLines(text), [indent + "</p>"]);
    UnlinesOne(indent + "<p>");
    UnlinesOne(indent + "</p>");
    if text.Some? {
      UnlinesOne(text.value);
    }
  }

  /** Read line by line, a paragraph is its opening tag, its text when
      given, and its closing tag, each on a line of its own. */
  lemma ParLines(text: Option<string>, indent: string)
    requires NoNewline(indent) && (text.Some? ==> NoNewline(text.value))
    ensures SplitOn(Par(text, indent), '\n')
         == [indent + "<p>"] + OptLines(text) + [indent + "</p>", ""]
  {
    ParAsLines(text, indent);
    ParLinesNoNewline(text, indent);
    LinesOfUnlines(ParLineList(text, indent));
  }

  lemma ParTags()
    ensures NoNewline("<p>") && NoNewline("</p>")
  {
  }

  lemma ParLinesNoNewline(text: Option<string>, indent: string)
    requires NoNewline(indent) && (text.Some? ==> NoNewline(text.value))
    ensures AllNoNewline(ParLineList(text, indent))
  {
    ParTags();
    AllNoNewlineAppend([indent + "<p>"], OptLines(text));
    AllNoNewlineAppend([indent + "<p>"] + OptLines(text), [indent + "</p>"]);
  }

  // ------------------------------------------------------------- figure

  /** The image line of a figure. */
  function FigureImage(src: string, indent: string): string {
    indent + Indent1 + "<img src=\"" + src + "\" width=\"40%\">"
  }

  /** `figure(src, caption, indent)`. */
  function Figure(src: string, caption: Option<string>, indent: string): string {
    (Line(indent + "<figure>")
     + Line(FigureImage(src, indent))
     + Line(indent + Indent1 + "<figcaption>"))
    + (if caption.Some? then Line(indent + Indent1 + caption.value) else "")
    + (Line(indent + Indent1 + "</figcaption>")
       + Line(indent + "</figure>"))
  }

  /** The lines of a figure: the image always, and a caption line between
      the caption tags exactly when a caption is given. */
  function FigureLineList(src: string, caption: Option<string>, indent: string): seq<string> {
    [indent + "<figure>", FigureImage(src, indent), indent + Indent1 + "<figcaption>"]
    + (if caption.Some? then [indent + Indent1 + caption.value] else [])
    + [indent + Indent1 + "</figcaption>", indent + "</figure>"]
  }

  lemma FigureAsLines(src: string, caption: Option<string>, indent: string)
    ensures Figure(src, caption, indent) == Unlines(FigureLineList(src, caption, indent))
  {
    var top := [indent + "<figure>", FigureImage(src, indent), indent + Indent1 + "<figcaption>"];
    var mid := if caption.Some? then [indent + Indent1 + caption.value] else [];
    var bottom := [indent + Indent1 + "</figcaption>", indent + "</figure>"];
    UnlinesAppend3(top, mid, bottom);
    UnlinesThree(top[0], top[1], top[2]);
    UnlinesTwo(bottom[0], bottom[1]);
    if caption.Some? {
      UnlinesOne(mid[0]);
    }
  }

  lemma FigureTags()
    ensures NoNewline("<figure>") && NoNewline("</figure>") && NoNewline(Indent1)
    ensures NoNewline("<figcaption>") && NoNewline("</figcaption>")
    ensures NoNewline("<img src=\"") && NoNewline("\" width=\"40%\">")
  {
  }

  lemma FigureLinesNoNewline(src: string, caption: Option<string>, indent: string)
    requires NoNewline(indent) && NoNewline(src) && (caption.Some? ==> NoNewline(caption.value))
    ensures AllNoNewline(FigureLineList(src, caption, indent))
  {
    FigureTags();
    var top := [indent + "<figure>", FigureImage(src, indent), indent + Indent1 + "<figcaption>"];
    var mid := if caption.Some? then [indent + Indent1 + caption.value] else [];
    var bottom := [indent + Indent1 + "</figcaption>", indent + "</figure>"];
    assert AllNoNewline(top);
    AllNoNewlineAppend(top, mid);
    AllNoNewlineAppend(top + mid, bottom);
  }

  /** Read line by line, a figure holds the image line with `src` quoted,
      and a caption line exactly when a caption is given. */
  lemma FigureLines(src: string, caption: Option<string>, indent: string)
    requires NoNewline(indent) && NoNewline(src) && (caption.Some? ==> NoNewline(caption.value))
    ensures SplitOn(Figure(src, caption, indent), '\n') == FigureLineList(src, caption, indent) + [""]
  {
    FigureAsLines(src, caption, indent);
    FigureLinesNoNewline(src, caption, indent);
    LinesOfUnlines(FigureLineList(src, caption, indent));
  }

  // ------------------------------------------------------------ details

  /** The class of a summary at `level`: `"sum" + str(level)`. */
  function SummaryClass(level: int): (c: string)
    ensures |c| >= 4 && c[..3] == "sum"
  {
    "sum" + IntToString(level)
  }

  /** The class name gives the level back, so summaries at different
      levels get different classes. */
  lemma SummaryClassLevel(level: int)
    ensures ParseInt(SummaryClass(level)[3..]) == level
  {
    assert SummaryClass(level)[3..] == IntToString(level);
    IntToStringRoundTrip(level);
  }

  lemma NumeralNoNewline(n: int)
    ensures NoNewline(IntToString(n))
  {
    var r := IntToString(n);
    if n >= 0 {
      assert forall i :: 0 <= i < |r| ==> IsDigit(r[i]);
    } else {
      var d := NatToString(-n);
      assert forall i :: 0 <= i < |d| ==> IsDigit(d[i]);
      assert forall i :: 1 <= i < |r| ==> r[i] == d[i - 1];
    }
  }

  /** `details(sumtext, level, indent, inc_par, inc_fig, inner_details)`. */
  function Details(sumtext: string, level: int, indent: string, incPar: bool, incFig: bool,
                   innerDetails: Option<string>): string
  {
    var base := LevelIndent(indent, level);
    var inner := base + Indent1;
    (Line(base + "<details>")
     + Line(inner + "<summary class=\"" + SummaryClass(level) + "\">")
     + Line(inner + sumtext))
    + Line(inner + "</summary>")
    + ((if incFig then Figure("", None, inner) else "")
       + (if incPar then Par(None, inner) else "")
       + (if innerDetails.Some? then innerDetails.value else ""))
    + Line(base + "</details>")
  }

  /** The optional sections of a details block, as lines: the empty
      figure, the empty paragraph, the nested block's lines. */
  function DetailsBody(inner: string, incPar: bool, incFig: bool, innerLines: seq<string>): seq<string> {
    (if incFig then FigureLineList("", None, inner) else [])
    + (if incPar then ParLineList(None, inner) else [])
    + innerLines
  }

  /** The lines of a details block whose nested text has `innerLines`. */
  function DetailsLineList(sumtext: string, level: int, indent: string, incPar: bool, incFig: bool,
                           innerLines: seq<string>): seq<string>
  {
    var base := LevelIndent(indent, level);
    var inner := base + Indent1;
    [base + "<details>", inner + "<summary class=\"" + SummaryClass(level) + "\">", inner + sumtext]
    + [inner + "</summary>"]
    + DetailsBody(inner, incPar, incFig, innerLines)
    + [base + "</details>"]
  }

  lemma DetailsBodyAsLines(inner: string, incPar: bool, incFig: bool, innerDetails: Option<string>,
                           innerLines: seq<string>)
    requires innerDetails.Some? ==> innerDetails.value == Unlines(innerLines)
    requires innerDetails.None? ==> innerLines == []
    ensures (if incFig then Figure("", None, inner) else "")
            + (if incPar then Par(None, inner) else "")
            + (if innerDetails.Some? then innerDetails.value else "")
         == Unlines(DetailsBody(inner, incPar, incFig, innerLines))
  {
    FigureAsLines("", None, inner);
    ParAsLines(None, inner);
    UnlinesAppend3(if incFig then FigureLineList("", None, inner) else [],
                   if incPar then ParLineList(None, inner) else [],
                   innerLines);
  }

  lemma DetailsAsLines(sumtext: string, level: int, indent: string, incPar: bool, incFig: bool,
                       innerDetails: Option<string>, innerLines: seq<string>)
    requires innerDetails.Some? ==> innerDetails.value == Unlines(innerLines)
    requires innerDetails.None? ==> innerLines == []
    ensures Details(sumtext, level, indent, incPar, incFig, innerDetails)
         == Unlines(DetailsLineList(sumtext, level, indent, incPar, incFig, innerLines))
  {
    var base := LevelIndent(indent, level);
    var inner := base + Indent1;
    var top := [base + "<details>", inner + "<summary class=\"" + SummaryClass(level) + "\">", inner + sumtext];
    var body := DetailsBody(inner, incPar, incFig, innerLines);
    UnlinesThree(top[0], top[1], top[2]);
    UnlinesOne(inner + "</summary>");
    DetailsBodyAsLines(inner, incPar, incFig, innerDetails, innerLines);
    UnlinesOne(base + "</details>");
    UnlinesAppend3(top, [inner + "</summary>"], body);
    UnlinesAppend(top + [inner + "</summary>"] + body, [base + "</details>"]);
  }

  lemma DetailsTags()
    ensures NoNewline("<details>") && NoNewline("</details>") && NoNewline("sum")
    ensures NoNewline("<summary class=\"") && NoNewline("\">") && NoNewline("</summary>")
  {
  }

  lemma DetailsLinesNoNewline(sumtext: string, level: int, indent: string, incPar: bool, incFig: bool,
                              innerLines: seq<string>)
    requires NoNewline(indent) && NoNewline(sumtext) && AllNoNewline(innerLines)
    ensures AllNoNewline(DetailsLineList(sumtext, level, indent, incPar, incFig, innerLines))
  {
    var base := LevelIndent(indent, level);
    var inner := base + Indent1;
    LevelIndentNoNewline(indent, level);
    NumeralNoNewline(level);
    DetailsTags();
    var fig := if incFig then FigureLineList("", None, inner) else [];
    var par := if incPar then ParLineList(None, inner) else [];
    FigureLinesNoNewline("", None, inner);
    ParLinesNoNewline(None, inner);
    AllNoNewlineAppend(fig, par);
    AllNoNewlineAppend(fig + par, innerLines);
    var top := [base + "<details>", inner + "<summary class=\"" + SummaryClass(level) + "\">", inner + sumtext];
    assert AllNoNewline(top + [inner + "</summary>"]);
    AllNoNewlineAppend(top + [inner + "</summary>"], fig + par + innerLines);
    AllNoNewlineAppend(top + [inner + "</summary>"] + (fig + par + innerLines), [base + "</details>"]);
  }

  /** Read line by line, a details block at `level` is the opening tag at
      the level's indentation, the summary (its class naming the level,
      its text), then the empty figure and the empty paragraph when asked
      for, one unit further in, then the lines of the nested text
      verbatim, then the closing tag. */
  lemma DetailsLines(sumtext: string, level: int, indent: string, incPar: bool, incFig: bool,
                     innerDetails: Option<string>, innerLines: seq<string>)
    requires NoNewline(indent) && NoNewline(sumtext) && AllNoNewline(innerLines)
    requires innerDetails.Some? ==> innerDetails.value == Unlines(innerLines)
    requires innerDetails.None? ==> innerLines == []
    ensures SplitOn(Details(sumtext, level, indent, incPar, incFig, innerDetails), '\n')
         == DetailsLineList(sumtext, level, indent, incPar, incFig, innerLines) + [""]
  {
    DetailsAsLines(sumtext, level, indent, incPar, incFig, innerDetails, innerLines);
    DetailsLinesNoNewline(sumtext, level, indent, incPar, incFig, innerLines);
    LinesOfUnlines(DetailsLineList(sumtext, level, indent, incPar, incFig, innerLines));
  }

  // -------------------------------------------------------------- lists

  /** The item blocks `html_list` appends, one per item in order. */
  function ListItems(items: seq<string>, inner: string): string {
    if |items| == 0 then ""
    else Line(inner + "<li>") + Line(inner + items[0]) + Line(inner + "</li>") + ListItems(items[1..], inner)
  }

  /** The item lines: three per item, the item's text between `<li>` and
      `</li>`, in input order. */
  function ItemLines(items: seq<string>, inner: string): (ls: seq<string>)
    ensures |ls| == 3 * |items|
    ensures forall k :: 0 <= k < |items| ==>
              ls[3 * k] == inner + "<li>" && ls[3 * k + 1] == inner + items[k] && ls[3 * k + 2] == inner + "</li>"
  {
    if |items| == 0 then []
    else [inner + "<li>", inner + items[0], inner + "</li>"] + ItemLines(items[1..], inner)
  }

  lemma {:induction false} ListItemsAsLines(items: seq<string>, inner: string)
    ensures ListItems(items, inner) == Unlines(ItemLines(items, inner))
    decreases |items|
  {
    if |items| > 0 {
      var three := [inner + "<li>", inner + items[0], inner + "</li>"];
      ListItemsAsLines(items[1..], inner);
      UnlinesAppend(three, ItemLines(items[1..], inner));
      UnlinesThree(three[0], three[1], three[2]);
    }
  }

  /** The loop of `html_list` appends one block per item: the blocks of a
      longer list are those of its first part followed by those of the
      rest. */
  lemma {:induction false} ListItemsAppend(a: seq<string>, b: seq<string>, inner: string)
    ensures ListItems(a + b, inner) == ListItems(a, inner) + ListItems(b, inner)
    decreases |a|
  {
    if |a| == 0 {
      assert a + b == b;
    } else {
      assert (a + b)[0] == a[0];
      assert (a + b)[1..] == a[1..] + b;
      ListItemsAppend(a[1..], b, inner);
    }
  }

  /** The opening tag of a list, with a class attribute exactly when a
      class is given. */
  function ListOpen(cssClass: Option<string>, listType: string): string {
    "<" + listType + (if cssClass.Some? then " class=\"" + cssClass.value + "\"" else "") + ">"
  }

  /** `html_list(css_class, l, indent, level, list_type)`. */
  function HtmlList(cssClass: Option<string>, items: seq<string>, indent: string, level: int,
                    listType: string): string
  {
    var base := LevelIndent(indent, level);
    Line(base + ListOpen(cssClass, listType))
    + ListItems(items, base + Indent1)
    + Line(base + "</" + listType + ">")
  }

  /** The lines of a list. */
  function HtmlListLineList(cssClass: Option<string>, items: seq<string>, indent: string, level: int,
                            listType: string): seq<string>
  {
    var base := LevelIndent(indent, level);
    [base + ListOpen(cssClass, listType)] + ItemLines(items, base + Indent1) + [base + "</" + listType + ">"]
  }

  lemma HtmlListAsLines(cssClass: Option<string>, items: seq<string>, indent: string, level: int, listType: string)
    ensures HtmlList(cssClass, items, indent, level, listType)
         == Unlines(HtmlListLineList(cssClass, items, indent, level, listType))
  {
    var base := LevelIndent(indent, level);
    var inner := base + Indent1;
    ListItemsAsLines(items, inner);
    UnlinesAppend3([base + ListOpen(cssClass, listType)], ItemLines(items, inner), [base + "</" + listType + ">"]);
    UnlinesOne(base + ListOpen(cssClass, listType));
    UnlinesOne(base + "</" + listType + ">");
  }

  lemma ListTags()
    ensures NoNewline("<") && NoNewline("</") && NoNewline(">")
    ensures NoNewline(" class=\"") && NoNewline("\"")
  {
  }

  lemma HtmlListNoNewline(cssClass: Option<string>, items: seq<string>, indent: string, level: int, listType: string)
    requires NoNewline(indent) && NoNewline(listType)
    requires cssClass.Some? ==> NoNewline(cssClass.value)
    requires AllNoNewline(items)
    ensures AllNoNewline(HtmlListLineList(cssClass, items, indent, level, listType))
  {
    var base := LevelIndent(indent, level);
    var inner := base + Indent1;
    var open := base + ListOpen(cssClass, listType);
    var close := base + "</" + listType + ">";
    LevelIndentNoNewline(indent, level);
    ItemLinesNoNewline(items, inner);
    ListTags();
    assert NoNewline(open) && NoNewline(close);
    AllNoNewlineAppend([open], ItemLines(items, inner));
    AllNoNewlineAppend([open] + ItemLines(items, inner), [close]);
  }

  /** Read line by line, a list is its opening tag at the level's
      indentation, three lines per item in input order one unit further
      in, and its closing tag. */
  lemma HtmlListLines(cssClass: Option<string>, items: seq<string>, indent: string, level: int, listType: string)
    requires NoNewline(indent) && NoNewline(listType)
    requires cssClass.Some? ==> NoNewline(cssClass.value)
    requires AllNoNewline(items)
    ensures SplitOn(HtmlList(cssClass, items, indent, level, listType), '\n')
         == HtmlListLineList(cssClass, items, indent, level, listType) + [""]
  {
    HtmlListAsLines(cssClass, items, indent, level, listType);
    HtmlListNoNewline(cssClass, items, indent, level, listType);
    LinesOfUnlines(HtmlListLineList(cssClass, items, indent, level, listType));
  }

  lemma ItemTags()
    ensures NoNewline("<li>") && NoNewline("</li>")
  {
  }

  lemma ItemLinesNoNewline(items: seq<string>, inner: string)
    requires NoNewline(inner) && AllNoNewline(items)
    ensures AllNoNewline(ItemLines(items, inner))
  {
    ItemTags();
    var ls := ItemLines(items, inner);
    forall j | 0 <= j < |ls| ensures NoNewline(ls[j]) {
      var k := j / 3;
      assert j == 3 * k || j == 3 * k + 1 || j == 3 * k + 2;
      assert NoNewline(items[k]);
    }
  }

  /** `ulist(css_class, l, indent, level)`, as written: it passes
      `list_type='ol'`. */
  function Ulist(cssClass: Option<string>, items: seq<string>, indent: string, level: int): string {
    HtmlList(cssClass, items, indent, level, "ol")
  }

  /** `olist(css_class, l, indent, level)`. */
  function Olist(cssClass: Option<string>, items: seq<string>, indent: string, level: int): string {
    HtmlList(cssClass, items, indent, level, "ol")
  }

  /** As written, `ulist` gives exactly what `olist` gives, an ordered
      list: its first line opens an `ol` element. */
  lemma UlistIsOlist(cssClass: Option<string>, items: seq<string>, indent: string, level: int)
    requires NoNewline(indent) && (cssClass.Some? ==> NoNewline(cssClass.value)) && AllNoNewline(items)
    ensures Ulist(cssClass, items, indent, level) == Olist(cssClass, items, indent, level)
    ensures SplitOn(Ulist(cssClass, items, indent, level), '\n')[0]
         == LevelIndent(indent, level) + ListOpen(cssClass, "ol")
  {
    HtmlListLines(cssClass, items, indent, level, "ol");
  }

  /** `ulist` with the list type its name and `html_list`'s default call
      for. */
  function UlistIntended(cssClass: Option<string>, items: seq<string>, indent: string, level: int): string {
    HtmlList(cssClass, items, indent, level, "ul")
  }

  /** The corrected `ulist` opens an unordered list where `olist` opens
      an ordered one, so the two never produce the same text. */
  lemma UlistIntendedUnordered(cssClass: Option<string>, items: seq<string>, indent: string, level: int)
    ensures UlistIntended(cssClass, items, indent, level)[|LevelIndent(indent, level)| + 1] == 'u'
    ensures Olist(cssClass, items, indent, level)[|LevelIndent(indent, level)| + 1] == 'o'
    ensures UlistIntended(cssClass, items, indent, level) != Olist(cssClass, items, indent, level)
  {
    ListTypeAfterIndent(cssClass, items, indent, level, "ul");
    ListTypeAfterIndent(cssClass, items, indent, level, "ol");
  }

  /** The character right after the indentation and `<` is the first of
      the list type. */
  lemma ListTypeAfterIndent(cssClass: Option<string>, items: seq<string>, indent: string, level: int,
                            listType: string)
    requires |listType| > 0
    ensures |LevelIndent(indent, level)| + 1 < |HtmlList(cssClass, items, indent, level, listType)|
    ensures HtmlList(cssClass, items, indent, level, listType)[|LevelIndent(indent, level)| + 1] == listType[0]
  {
    var base := LevelIndent(indent, level);
    var first := base + ListOpen(cssClass, listType);
    var open := "<" + listType;
    assert ListOpen(cssClass, listType) == open + ((if cssClass.Some? then " class=\"" + cssClass.value + "\"" else "") + ">");
    assert open[1] == listType[0];
    assert first[|base| + 1] == listType[0];
    assert Line(first)[|base| + 1] == listType[0];
  }

  // -------------------------------------------------------------- image

  /** `image(indent, src, alt, other_attr)`, as written: nothing separates
      the `src` value from `alt=`. */
  function Image(indent: string, src: string, alt: string, otherAttr: string): string {
    Line(indent + "<img src=" + src + "alt=" + alt + otherAttr + ">")
  }

  lemma ImageTags()
    ensures NoNewline("<img src=") && NoNewline("alt=") && NoNewline(">")
  {
  }

  /** Read line by line, an image is its one tag line. */
  lemma ImageLines(indent: string, src: string, alt: string, otherAttr: string)
    requires NoNewline(indent) && NoNewline(src) && NoNewline(alt) && NoNewline(otherAttr)
    ensures SplitOn(Image(indent, src, alt, otherAttr), '\n')
         == [indent + "<img src=" + src + "alt=" + alt + otherAttr + ">", ""]
  {
    var tag := indent + "<img src=" + src + "alt=" + alt + otherAttr + ">";
    ImageTags();
    assert AllNoNewline([tag]);
    UnlinesOne(tag);
    LinesOfUnlines([tag]);
  }

  /** A character that ends an unquoted attribute value: `>` or white
      space (the `[^>\s]*` of Python's `html.parser`). */
  predicate EndsUnquoted(c: char) {
    c == '>' || IsSpace(c)
  }

  /** Length of the unquoted value that starts `s`. */
  function UnquotedEnd(s: string): (n: nat)
    ensures n <= |s|
    ensures forall k :: 0 <= k < n ==> !EndsUnquoted(s[k])
    ensures n < |s| ==> EndsUnquoted(s[n])
  {
    if |s| == 0 || EndsUnquoted(s[0]) then 0 else 1 + UnquotedEnd(s[1..])
  }

  /** A value without ending characters, followed by one, is read to
      exactly its end. */
  lemma UnquotedEndAppend(v: string, tail: string)
    requires forall k :: 0 <= k < |v| ==> !EndsUnquoted(v[k])
    requires |tail| > 0 && EndsUnquoted(tail[0])
    ensures UnquotedEnd(v + tail) == |v|
  {
    assert (v + tail)[|v|] == tail[0];
    assert forall k :: 0 <= k < |v| ==> (v + tail)[k] == v[k];
  }

  /** The unquoted `src` value as an HTML parser reads it: everything
      after `<img src=` up to the first `>` or white-space character. */
  function SrcValue(tag: string, indent: string): (v: string)
    requires |tag| >= |indent| + 9
    ensures forall k :: 0 <= k < |v| ==> !EndsUnquoted(v[k])
    ensures StartsWith(tag[|indent| + 9..], v)
  {
    var rest := tag[|indent| + 9..];
    rest[..UnquotedEnd(rest)]
  }

  /** As written, different (`src`, `alt`) pairs can give the same tag,
      and the `src` value read back runs into the `alt` attribute. */
  lemma ImageRunsTogether(indent: string)
    ensures Image(indent, "a", "alt=b", "") == Image(indent, "aalt=", "b", "")
    ensures SrcValue(Image(indent, "a", "b", ""), indent) == "aalt=b"
  {
    var t := Image(indent, "a", "b", "");
    var v, tail := "aalt=b", ">\n";
    assert t == indent + "<img src=" + (v + tail);
    assert t[|indent| + 9..] == v + tail;
    assert forall k :: 0 <= k < |v| ==> !EndsUnquoted(v[k]);
    UnquotedEndAppend(v, tail);
    assert (v + tail)[..|v|] == v;
  }

  /** `image` with the space before `alt=` that the attribute syntax
      needs. */
  function ImageSeparated(indent: string, src: string, alt: string, otherAttr: string): string {
    Line(indent + "<img src=" + src + " alt=" + alt + otherAttr + ">")
  }

  /** With the separator, a `src` without `>` and white space reads back
      exactly. */
  lemma ImageSrcReadBack(indent: string, src: string, alt: string, otherAttr: string)
    requires forall k :: 0 <= k < |src| ==> !EndsUnquoted(src[k])
    ensures SrcValue(ImageSeparated(indent, src, alt, otherAttr), indent) == src
  {
    var t := ImageSeparated(indent, src, alt, otherAttr);
    var tail := " alt=" + alt + otherAttr + ">\n";
    assert t == indent + "<img src=" + (src + tail);
    assert t[|indent| + 9..] == src + tail;
    UnquotedEndAppend(src, tail);
    assert (src + tail)[..|src|] == src;
  }

  /** With the separator, the tag determines `src` when it has no `>` and
      no white space, and then `alt`. */
  lemma ImageSeparatedInjective(indent: string, src1: string, alt1: string, src2: string, alt2: string,
                                otherAttr: string)
    requires forall k :: 0 <= k < |src1| ==> !EndsUnquoted(src1[k])
    requires forall k :: 0 <= k < |src2| ==> !EndsUnquoted(src2[k])
    requires ImageSeparated(indent, src1, alt1, otherAttr) == ImageSeparated(indent, src2, alt2, otherAttr)
    ensures src1 == src2 && alt1 == alt2
  {
    ImageSrcReadBack(indent, src1, alt1, otherAttr);
    ImageSrcReadBack(indent, src2, alt2, otherAttr);
    var t1 := ImageSeparated(indent, src1, alt1, otherAttr);
    var t2 := ImageSeparated(indent, src2, alt2, otherAttr);
    var n := |indent| + 9 + |src1| + 5;
    var m := |t1| - |otherAttr| - 2;
    assert t1 == (indent + "<img src=" + src1 + " alt=") + alt1 + (otherAttr + ">\n");
    assert t2 == (indent + "<img src=" + src2 + " alt=") + alt2 + (otherAttr + ">\n");
    assert t1[n..m] == alt1;
    assert t2[n..m] == alt2;
  }

  // --------------------------------------------------------------- head

  /** `head(indent, title, cssFile)`; the `indent` argument is unused. */
  function Head(indent: string, title: string, cssFile: Option<string>): string {
    (Line("<head>") + Line(Indent1 + "<title>") + Line(""))
    + (Line(Indent2 + title) + Line(Indent1 + "</title>"))
    + (if cssFile.Some? then Line(LinkLine(cssFile.value)) else "")
    + Line("</head>")
  }

  /** The stylesheet link line. */
  function LinkLine(cssFile: string): string {
    "<link rel='stylesheet' type='text/css' href=" + cssFile + ">"
  }

  /** The lines of the head; `indent` plays no part. */
  function HeadLineList(title: string, cssFile: Option<string>): seq<string> {
    ["<head>", Indent1 + "<title>", ""]
    + [Indent2 + title, Indent1 + "</title>"]
    + (if cssFile.Some? then [LinkLine(cssFile.value)] else [])
    + ["</head>"]
  }

  lemma HeadAsLines(indent: string, title: string, cssFile: Option<string>)
    ensures Head(indent, title, cssFile) == Unlines(HeadLineList(title, cssFile))
  {
    var top := ["<head>", Indent1 + "<title>", ""];
    var titleLines := [Indent2 + title, Indent1 + "</title>"];
    var link := if cssFile.Some? then [LinkLine(cssFile.value)] else [];
    UnlinesThree(top[0], top[1], top[2]);
    UnlinesTwo(titleLines[0], titleLines[1]);
    if cssFile.Some? {
      UnlinesOne(link[0]);
    }
    UnlinesOne("</head>");
    UnlinesAppend3(top, titleLines, link);
    UnlinesAppend(top + titleLines + link, ["</head>"]);
  }

  lemma HeadTags()
    ensures NoNewline("<head>") && NoNewline("</head>") && NoNewline("")
    ensures NoNewline("<title>") && NoNewline("</title>") && NoNewline(Indent1) && NoNewline(Indent2)
  {
  }

  lemma LinkTags()
    ensures NoNewline("<link rel='stylesheet' type='text/css' href=") && NoNewline(">")
  {
  }

  lemma HeadNoNewline(title: string, cssFile: Option<string>)
    requires NoNewline(title) && (cssFile.Some? ==> NoNewline(cssFile.value))
    ensures AllNoNewline(HeadLineList(title, cssFile))
  {
    HeadTags();
    LinkTags();
    var top := ["<head>", Indent1 + "<title>", ""];
    var titleLines := [Indent2 + title, Indent1 + "</title>"];
    var link := if cssFile.Some? then [LinkLine(cssFile.value)] else [];
    assert AllNoNewline(top) && AllNoNewline(titleLines) && AllNoNewline(link);
    AllNoNewlineAppend(top, titleLines);
    AllNoNewlineAppend(top + titleLines, link);
    AllNoNewlineAppend(top + titleLines + link, ["</head>"]);
  }

  /** Read line by line, the head is the title between its tags after an
      empty line, then the stylesheet link exactly when a file is given;
      the `indent` argument has no effect. */
  lemma HeadLines(indent: string, title: string, cssFile: Option<string>)
    requires NoNewline(title) && (cssFile.Some? ==> NoNewline(cssFile.value))
    ensures SplitOn(Head(indent, title, cssFile), '\n') == HeadLineList(title, cssFile) + [""]
  {
    HeadAsLines(indent, title, cssFile);
    HeadNoNewline(title, cssFile);
    LinesOfUnlines(HeadLineList(title, cssFile));
  }

  // ------------------------------------------------------------ sidebar

  /** The attributes a submenu anchor carries. */
  const CollapseLink: string := "data-toggle=\"collapse\" aria-expanded=\"false\""

  /** The fields of a topic that `sidebar_links` reads; an empty
      glyphicon name is false to Python. */
  datatype Topic = Topic(url: string, glyphicon: string, title: string)

  /** The anchor line of a sidebar entry: a link to the topic's URL, or to
      the numbered submenu with the collapse attributes. */
  function Anchor(padding: string, topic: Topic, totSubmenus: int, isUrl: bool): string {
    if isUrl then padding + "<a href=\"" + topic.url + "\">"
    else padding + "<a href=\"#Submenu" + IntToString(totSubmenus) + "\" " + CollapseLink + " >"
  }

  /** The icon line of a sidebar entry. */
  function IconLine(padding: string, glyphicon: string): string {
    padding + "<i class=\"glyphicon " + glyphicon + "\"></i>"
  }

  /** `sidebar_links(padding, topic, tot_submenus, is_url)`. */
  function SidebarLinks(padding: string, topic: Topic, totSubmenus: int, isUrl: bool): string {
    (Line(padding + "<li>") + Line(Anchor(padding, topic, totSubmenus, isUrl)))
    + (if topic.glyphicon != "" then Line(IconLine(padding, topic.glyphicon)) else "")
    + (Line(padding + topic.title) + Line(padding + "</a>") + Line(padding + "</li>"))
  }

  /** The lines of a sidebar entry. */
  function SidebarLinksLineList(padding: string, topic: Topic, totSubmenus: int, isUrl: bool): seq<string> {
    [padding + "<li>", Anchor(padding, topic, totSubmenus, isUrl)]
    + (if topic.glyphicon != "" then [IconLine(padding, topic.glyphicon)] else [])
    + [padding + topic.title, padding + "</a>", padding + "</li>"]
  }

  lemma SidebarLinksAsLines(padding: string, topic: Topic, totSubmenus: int, isUrl: bool)
    ensures SidebarLinks(padding, topic, totSubmenus, isUrl) == Unlines(SidebarLinksLineList(padding, topic, totSubmenus, isUrl))
  {
    var top := [padding + "<li>", Anchor(padding, topic, totSubmenus, isUrl)];
    var icon := if topic.glyphicon != "" then [IconLine(padding, topic.glyphicon)] else [];
    var bottom := [padding + topic.title, padding + "</a>", padding + "</li>"];
    UnlinesTwo(top[0], top[1]);
    if topic.glyphicon != "" {
      UnlinesOne(icon[0]);
    }
    UnlinesThree(bottom[0], bottom[1], bottom[2]);
    UnlinesAppend3(top, icon, bottom);
  }

  lemma AnchorTags()
    ensures NoNewline("<a href=\"") && NoNewline("\">") && NoNewline("</a>")
  {
  }

  lemma CollapseTags()
    ensures NoNewline("<a href=\"#Submenu") && NoNewline("\" ") && NoNewline(" >") && NoNewline(CollapseLink)
  {
  }

  lemma IconTags()
    ensures NoNewline("<i class=\"glyphicon ") && NoNewline("\"></i>")
  {
  }

  lemma SidebarLinksNoNewline(padding: string, topic: Topic, totSubmenus: int, isUrl: bool)
    requires NoNewline(padding) && NoNewline(topic.url) && NoNewline(topic.glyphicon) && NoNewline(topic.title)
    ensures AllNoNewline(SidebarLinksLineList(padding, topic, totSubmenus, isUrl))
  {
    var top := [padding + "<li>", Anchor(padding, topic, totSubmenus, isUrl)];
    var icon := if topic.glyphicon != "" then [IconLine(padding, topic.glyphicon)] else [];
    var bottom := [padding + topic.title, padding + "</a>", padding + "</li>"];
    NumeralNoNewline(totSubmenus);
    ItemTags();
    AnchorTags();
    CollapseTags();
    IconTags();
    assert NoNewline(Anchor(padding, topic, totSubmenus, isUrl));
    assert AllNoNewline(top) && AllNoNewline(icon) && AllNoNewline(bottom);
    AllNoNewlineAppend(top, icon);
    AllNoNewlineAppend(top + icon, bottom);
  }

  /** Read line by line, a sidebar entry is the item tag, the anchor, the
      icon exactly when the topic names one, the title, and the closing
      tags. */
  lemma SidebarLinksLines(padding: string, topic: Topic, totSubmenus: int, isUrl: bool)
    requires NoNewline(padding) && NoNewline(topic.url) && NoNewline(topic.glyphicon) && NoNewline(topic.title)
    ensures SplitOn(SidebarLinks(padding, topic, totSubmenus, isUrl), '\n')
         == SidebarLinksLineList(padding, topic, totSubmenus, isUrl) + [""]
  {
    SidebarLinksAsLines(padding, topic, totSubmenus, isUrl);
    SidebarLinksNoNewline(padding, topic, totSubmenus, isUrl);
    LinesOfUnlines(SidebarLinksLineList(padding, topic, totSubmenus, isUrl));
  }

  /** The number in a submenu anchor reads back as `tot_submenus`, so
      different submenus get different anchors. */
  lemma SubmenuAnchorNumber(padding: string, topic: Topic, totSubmenus: int)
    ensures var a := Anchor(padding, topic, totSubmenus, false);
            var n := |IntToString(totSubmenus)|;
            |padding| + 17 + n <= |a| && ParseInt(a[|padding| + 17..|padding| + 17 + n]) == totSubmenus
  {
    var digits := IntToString(totSubmenus);
    var a := Anchor(padding, topic, totSubmenus, false);
    var pre := padding + "<a href=\"#Submenu";
    assert |pre| == |padding| + 17;
    assert a == pre + digits + ("\" " + CollapseLink + " >");
    assert a[|pre|..|pre| + |digits|] == digits;
    IntToStringRoundTrip(totSubmenus);
  }

  /** The fixed header lines of the sidebar. */
  function SidebarHeader(title: string, shortTitle: string): seq<string> {
    ["<!-- Sidebar Holder -->", "<nav id=\"sidebar\">", "<div id=\"sidebarCollapse\">"]
    + ["<div class=\"sidebar-header\">", "<h1>", title]
    + ["</h1>", "<strong>" + shortTitle + "</strong>", "</div>"]
    + ["</div>"]
  }

  /** `sidebar(title, short_title, menu_txt)`. */
  function Sidebar(title: string, shortTitle: string, menuTxt: string): string {
    (Line("<!-- Sidebar Holder -->") + Line("<nav id=\"sidebar\">") + Line("<div id=\"sidebarCollapse\">"))
    + (Line("<div class=\"sidebar-header\">") + Line("<h1>") + Line(title))
    + (Line("</h1>") + Line("<strong>" + shortTitle + "</strong>") + Line("</div>"))
    + Line("</div>")
    + menuTxt
    + Line("</nav>")
  }

  lemma SidebarAsLines(title: string, shortTitle: string, menuTxt: string, menuLines: seq<string>)
    requires menuTxt == Unlines(menuLines)
    ensures Sidebar(title, shortTitle, menuTxt) == Unlines(SidebarHeader(title, shortTitle) + menuLines + ["</nav>"])
  {
    var a := ["<!-- Sidebar Holder -->", "<nav id=\"sidebar\">", "<div id=\"sidebarCollapse\">"];
    var b := ["<div class=\"sidebar-header\">", "<h1>", title];
    var c := ["</h1>", "<strong>" + shortTitle + "</strong>", "</div>"];
    UnlinesThree(a[0], a[1], a[2]);
    UnlinesThree(b[0], b[1], b[2]);
    UnlinesThree(c[0], c[1], c[2]);
    UnlinesOne("</div>");
    UnlinesOne("</nav>");
    UnlinesAppend3(a, b, c);
    UnlinesAppend(a + b + c, ["</div>"]);
    UnlinesAppend3(a + b + c + ["</div>"], menuLines, ["</nav>"]);
  }

  /** The menu text goes in verbatim between the header and the closing
      `</nav>`: read line by line, the sidebar is the header lines, the
      menu's own lines and the closing tag. */
  lemma SidebarLines(title: string, shortTitle: string, menuTxt: string, menuLines: seq<string>)
    requires NoNewline(title) && NoNewline(shortTitle) && AllNoNewline(menuLines)
    requires menuTxt == Unlines(menuLines)
    ensures SplitOn(Sidebar(title, shortTitle, menuTxt), '\n')
         == SidebarHeader(title, shortTitle) + menuLines + ["</nav>"] + [""]
  {
    SidebarAsLines(title, shortTitle, menuTxt, menuLines);
    SidebarNoNewline(title, shortTitle, menuLines);
    LinesOfUnlines(SidebarHeader(title, shortTitle) + menuLines + ["</nav>"]);
  }

  lemma SidebarNoNewline(title: string, shortTitle: string, menuLines: seq<string>)
    requires NoNewline(title) && NoNewline(shortTitle) && AllNoNewline(menuLines)
    ensures AllNoNewline(SidebarHeader(title, shortTitle) + menuLines + ["</nav>"])
  {
    var h := SidebarHeader(title, shortTitle);
    SidebarHeaderNoNewline(title, shortTitle);
    HeaderTags();
    AllNoNewlineAppend(h, menuLines);
    AllNoNewlineAppend(h + menuLines, ["</nav>"]);
  }

  lemma SidebarTags()
    ensures NoNewline("<!-- Sidebar Holder -->") && NoNewline("<nav id=\"sidebar\">")
  {
  }

  lemma CollapseHolderTags()
    ensures NoNewline("<div id=\"sidebarCollapse\">") && NoNewline("<div class=\"sidebar-header\">")
  {
  }

  lemma HeaderTags()
    ensures NoNewline("<h1>") && NoNewline("</h1>") && NoNewline("<strong>") && NoNewline("</strong>")
    ensures NoNewline("</div>") && NoNewline("</nav>")
  {
  }

  lemma SidebarHeaderNoNewline(title: string, shortTitle: string)
    requires NoNewline(title) && NoNewline(shortTitle)
    ensures AllNoNewline(SidebarHeader(title, shortTitle))
  {
    SidebarTags();
    CollapseHolderTags();
    HeaderTags();
    var a := ["<!-- Sidebar Holder -->", "<nav id=\"sidebar\">", "<div id=\"sidebarCollapse\">"];
    var b := ["<div class=\"sidebar-header\">", "<h1>", title];
    var c := ["</h1>", "<strong>" + shortTitle + "</strong>", "</div>"];
    assert AllNoNewline(a) && AllNoNewline(b) && AllNoNewline(c);
    AllNoNewlineAppend(a, b);
    AllNoNewlineAppend(a + b, c);
    AllNoNewlineAppend(a + b + c, ["</div>"]);
  }
}

=== FILE: lines.dfy ===
/** Text as a sequence of newline-terminated lines: the shape every
    templating helper of pylib/html_tags.py produces. */
module TextLines {
  import opened PyStr

  /** One line of output: the text and its newline. */
  function Line(s: string): (r: string)
    ensures |r| == |s| + 1 && r[..|s|] == s && r[|s|] == '\n'
  {
    s + "\n"
  }

  /** Each line followed by a newline, in order. */
  function Unlines(ls: seq<string>): (s: string)
    ensures |ls| > 0 ==> |s| > 0 && s[|s| - 1] == '\n'
  {
    if |ls| == 0 then "" else Line(ls[0]) + Unlines(ls[1..])
  }

  predicate NoNewline(s: string) {
    '\n' !in s
  }

  predicate AllNoNewline(ls: seq<string>) {
    forall k :: 0 <= k < |ls| ==> NoNewline(ls[k])
  }

  lemma AllNoNewlineAppend(x: seq<string>, y: seq<string>)
    requires AllNoNewline(x) && AllNoNewline(y)
    ensures AllNoNewline(x + y)
  {
    forall k | 0 <= k < |x + y| ensures NoNewline((x + y)[k]) {
      if k < |x| {
        assert (x + y)[k] == x[k];
      } else {
        assert (x + y)[k] == y[k - |x|];
      }
    }
  }

  lemma UnlinesOne(a: string)
    ensures Unlines([a]) == Line(a)
  {
    assert [a][1..] == [];
  }

  lemma UnlinesTwo(a: string, b: string)
    ensures Unlines([a, b]) == Line(a) + Line(b)
  {
    assert [a, b][1..] == [b];
    UnlinesOne(b);
  }

  lemma UnlinesThree(a: string, b: string, c: string)
    ensures Unlines([a, b, c]) == Line(a) + Line(b) + Line(c)
  {
    assert [a, b, c][1..] == [b, c];
    UnlinesTwo(b, c);
  }

  /** Text made of two blocks of lines has the lines of both. */
  lemma {:induction false} UnlinesAppend(x: seq<string>, y: seq<string>)
    ensures Unlines(x + y) == Unlines(x) + Unlines(y)
    decreases |x|
  {
    if |x| == 0 {
      assert x + y == y;
    } else {
      assert (x + y)[0] == x[0];
      assert (x + y)[1..] == x[1..] + y;
      UnlinesAppend(x[1..], y);
    }
  }

  lemma UnlinesAppend3(x: seq<string>, y: seq<string>, z: seq<string>)
    ensures Unlines(x + y + z) == Unlines(x) + Unlines(y) + Unlines(z)
  {
    UnlinesAppend(x + y, z);
    UnlinesAppend(x, y);
  }

  /** Splitting the text on newlines gives its lines back, followed by
      the empty piece after the last newline. */
  lemma {:induction false} LinesOfUnlines(ls: seq<string>)
    requires AllNoNewline(ls)
    ensures SplitOn(Unlines(ls), '\n') == ls + [""]
    decreases |ls|
  {
    if |ls| == 0 {
      IndexOfFree("", '\n');
    } else {
      var rest := Unlines(ls[1..]);
      LinesOfUnlines(ls[1..]);
      calc {
        SplitOn(Unlines(ls), '\n');
        == { assert Unlines(ls) == ls[0] + ['\n'] + rest; }
        SplitOn(ls[0] + ['\n'] + rest, '\n');
        == { SplitOnAfterPiece(ls[0], rest, '\n'); }
        [ls[0]] + (ls[1..] + [""]);
        == { assert ls == [ls[0]] + ls[1..]; }
        ls + [""];
      }
    }
  }

  /** Two texts with the same lines are the same text: lines without
      newlines are read back uniquely. */
  lemma UnlinesInjective(x: seq<string>, y: seq<string>)
    requires AllNoNewline(x) && AllNoNewline(y)
    requires Unlines(x) == Unlines(y)
    ensures x == y
  {
    LinesOfUnlines(x);
    LinesOfUnlines(y);
    assert x == (x + [""])[..|x|];
    assert y == (y + [""])[..|y|];
  }
}

=== FILE: optional.dfy ===
/** The Some/None datatype used wherever the Python code passes `None`
    for "not given" or a lookup may find nothing. */
module Optional {

  datatype Option<+T> = None | Some(value: T) {

    /** Returns the value in Some, or `default` when None */
    function GetOr(default: T): T {
      match this
      case Some(v) => v
      case None => default
    }
  }
}

=== FILE: pystr.dfy ===
/** The pieces of Python's `str` behaviour the spell checker and the HTML
    helpers rely on: `isspace`, `split()`, `split(sep)`, `strip(chars)`,
    `lower()`, the `in` substring test and `s * n`. */
module PyStr {

  /** Characters for which Python's `str.isspace()` holds; `str.split()`
      with no argument splits on runs of exactly these. */
  predicate IsSpace(c: char) {
    || '\t' <= c <= '\r'
    || '\U{1c}' <= c <= ' '
    || c == '\U{85}' || c == '\U{a0}' || c == '\U{1680}'
    || '\U{2000}' <= c <= '\U{200a}'
    || c == '\U{2028}' || c == '\U{2029}' || c == '\U{202f}'
    || c == '\U{205f}' || c == '\U{3000}'
  }

  predicate NoSpace(s: string) {
    forall i :: 0 <= i < |s| ==> !IsSpace(s[i])
  }

  /** The characters of `s` that are not white space, in order. */
  function DropSpaces(s: string): string {
    if |s| == 0 then ""
    else if IsSpace(s[0]) then DropSpaces(s[1..])
    else [s[0]] + DropSpaces(s[1..])
  }

  function Concat(parts: seq<string>): string {
    if |parts| == 0 then "" else parts[0] + Concat(parts[1..])
  }

  /** Length of the run of non-space characters that starts `s`. */
  function RunLength(s: string): (n: nat)
    ensures n <= |s|
    ensures forall i :: 0 <= i < n ==> !IsSpace(s[i])
    ensures n < |s| ==> IsSpace(s[n])
  {
    if |s| == 0 || IsSpace(s[0]) then 0 else 1 + RunLength(s[1..])
  }

  /** Python's `s.split()`: the maximal runs of non-space characters. */
  function Split(s: string): (r: seq<string>)
    ensures forall k :: 0 <= k < |r| ==> |r[k]| > 0 && NoSpace(r[k])
    decreases |s|
  {
    if |s| == 0 then []
    else if IsSpace(s[0]) then Split(s[1..])
    else
      var n := RunLength(s);
      [s[..n]] + Split(s[n..])
  }

  lemma DropSpacesAppend(a: string, b: string)
    ensures DropSpaces(a + b) == DropSpaces(a) + DropSpaces(b)
  {
    if |a| > 0 {
      assert (a + b)[0] == a[0];
      assert (a + b)[1..] == a[1..] + b;
      DropSpacesAppend(a[1..], b);
    } else {
      assert a + b == b;
    }
  }

  lemma DropSpacesOfWord(a: string)
    requires NoSpace(a)
    ensures DropSpaces(a) == a
  {
    if |a| > 0 {
      DropSpacesOfWord(a[1..]);
    }
  }

  /** Splitting loses exactly the white space: the tokens, glued back
      together, are the input with its spaces removed. */
  lemma {:induction false} SplitKeepsText(s: string)
    ensures Concat(Split(s)) == DropSpaces(s)
    decreases |s|
  {
    if |s| == 0 {
    } else if IsSpace(s[0]) {
      SplitKeepsText(s[1..]);
    } else {
      var n := RunLength(s);
      SplitKeepsText(s[n..]);
      assert s == s[..n] + s[n..];
      DropSpacesAppend(s[..n], s[n..]);
      DropSpacesOfWord(s[..n]);
    }
  }

  lemma RunLengthAppend(a: string, b: string)
    requires |b| > 0 && IsSpace(b[0])
    ensures RunLength(a + b) == RunLength(a)
  {
    if |a| > 0 && !IsSpace(a[0]) {
      assert (a + b)[1..] == a[1..] + b;
      RunLengthAppend(a[1..], b);
    }
  }

  /** A white-space character separates tokens: splitting `a + sp + b`
      splits `a` and `b` independently. */
  lemma {:induction false} SplitAtSpace(a: string, sp: char, b: string)
    requires IsSpace(sp)
    ensures Split(a + [sp] + b) == Split(a) + Split(b)
    decreases |a|
  {
    var s := a + [sp] + b;
    if |a| == 0 {
      assert s[1..] == b;
    } else if IsSpace(a[0]) {
      assert s[1..] == a[1..] + [sp] + b;
      SplitAtSpace(a[1..], sp, b);
    } else {
      RunLengthAppend(a, [sp] + b);
      assert s == a + ([sp] + b);
      var n := RunLength(a);
      assert s[..n] == a[..n];
      assert s[n..] == a[n..] + [sp] + b;
      SplitAtSpace(a[n..], sp, b);
    }
  }

  /** A non-empty string without white space is one token. */
  lemma {:induction false} SplitOfWord(w: string)
    requires |w| > 0 && NoSpace(w)
    ensures Split(w) == [w]
  {
    RunLengthOfWord(w);
    assert w[..|w|] == w;
  }

  lemma RunLengthOfWord(w: string)
    requires NoSpace(w)
    ensures RunLength(w) == |w|
  {
    if |w| > 0 {
      RunLengthOfWord(w[1..]);
    }
  }

  /** Index of the first `sep` in `s`, or `|s|` when there is none. */
  function IndexOf(s: string, sep: char): (n: nat)
    ensures n <= |s|
    ensures sep !in s[..n]
    ensures n < |s| ==> s[n] == sep
  {
    if |s| == 0 || s[0] == sep then 0 else 1 + IndexOf(s[1..], sep)
  }

  /** Python's `s.split(sep)` for a one-character separator: every
      occurrence of `sep` cuts, so `k` separators give `k + 1` pieces,
      empty pieces included. */
  function SplitOn(s: string, sep: char): (r: seq<string>)
    ensures |r| >= 1
    ensures forall k :: 0 <= k < |r| ==> sep !in r[k]
    decreases |s|
  {
    var n := IndexOf(s, sep);
    if n == |s| then [s] else [s[..n]] + SplitOn(s[n + 1..], sep)
  }

  /** A string with the separator in it splits into at least two pieces. */
  lemma SplitOnSeparated(s: string, sep: char)
    requires sep in s
    ensures |SplitOn(s, sep)| >= 2
  {
    assert s[..|s|] == s;
  }

  /** Python's `sep.join(parts)`. */
  function Join(parts: seq<string>, sep: char): string {
    if |parts| == 0 then ""
    else if |parts| == 1 then parts[0]
    else parts[0] + [sep] + Join(parts[1..], sep)
  }

  /** Joining the pieces of a split gives back the string. */
  lemma {:induction false} JoinSplitOn(s: string, sep: char)
    ensures Join(SplitOn(s, sep), sep) == s
    decreases |s|
  {
    var n := IndexOf(s, sep);
    if n < |s| {
      var head := s[..n];
      var tail := s[n + 1..];
      var rest := SplitOn(tail, sep);
      assert SplitOn(s, sep) == [head] + rest;
      JoinSplitOn(tail, sep);
      JoinCons(head, rest, sep);
      assert s == head + [sep] + tail;
    }
  }

  lemma JoinCons(p: string, rest: seq<string>, sep: char)
    requires |rest| >= 1
    ensures Join([p] + rest, sep) == p + [sep] + Join(rest, sep)
  {
    assert ([p] + rest)[1..] == rest;
  }

  /** A join of two or more pieces holds the separator. */
  lemma SepInJoin(parts: seq<string>, sep: char)
    requires |parts| >= 2
    ensures sep in Join(parts, sep)
  {
    JoinCons(parts[0], parts[1..], sep);
    assert parts == [parts[0]] + parts[1..];
    assert Join(parts, sep)[|parts[0]|] == sep;
  }

  /** Splitting a join of separator-free pieces gives back the pieces. */
  lemma {:induction false} SplitOnJoin(parts: seq<string>, sep: char)
    requires |parts| >= 1
    requires forall k :: 0 <= k < |parts| ==> sep !in parts[k]
    ensures SplitOn(Join(parts, sep), sep) == parts
    decreases |parts|
  {
    var p := parts[0];
    if |parts| == 1 {
      IndexOfFree(p, sep);
      assert p[..|p|] == p;
    } else {
      var tail := parts[1..];
      JoinCons(p, tail, sep);
      assert parts == [p] + tail;
      SplitOnAfterPiece(p, Join(tail, sep), sep);
      SplitOnJoin(tail, sep);
    }
  }

  /** A separator-free piece followed by the separator is split off. */
  lemma SplitOnAfterPiece(p: string, rest: string, sep: char)
    requires sep !in p
    ensures SplitOn(p + [sep] + rest, sep) == [p] + SplitOn(rest, sep)
  {
    var s := p + [sep] + rest;
    assert s == p + ([sep] + rest);
    IndexOfAppend(p, sep, [sep] + rest);
    assert s[..|p|] == p;
    assert s[|p| + 1..] == rest;
  }

  lemma IndexOfFree(s: string, sep: char)
    requires sep !in s
    ensures IndexOf(s, sep) == |s|
  {
    if |s| > 0 {
      IndexOfFree(s[1..], sep);
    }
  }

  lemma IndexOfAppend(a: string, sep: char, b: string)
    requires sep !in a && |b| > 0 && b[0] == sep
    ensures IndexOf(a + b, sep) == |a|
  {
    if |a| > 0 {
      assert (a + b)[1..] == a[1..] + b;
      IndexOfAppend(a[1..], sep, b);
    }
  }

  /** `string.punctuation`: the 32 printable ASCII characters that are
      neither letters, digits nor space. */
  predicate IsPunctuation(c: char) {
    '!' <= c <= '/' || ':' <= c <= '@' || '[' <= c <= '`' || '{' <= c <= '~'
  }

  predicate AllPunctuation(s: string) {
    forall i :: 0 <= i < |s| ==> IsPunctuation(s[i])
  }

  /** Python's `s.lstrip(string.punctuation)`. */
  function StripStart(s: string): (r: string)
    ensures |r| <= |s| && r == s[|s| - |r|..]
    ensures AllPunctuation(s[..|s| - |r|])
    ensures |r| > 0 ==> !IsPunctuation(r[0])
  {
    if |s| > 0 && IsPunctuation(s[0]) then StripStart(s[1..]) else s
  }

  /** Python's `s.rstrip(string.punctuation)`. */
  function StripEnd(s: string): (r: string)
    ensures |r| <= |s| && r == s[..|r|]
    ensures AllPunctuation(s[|r|..])
    ensures |r| > 0 ==> !IsPunctuation(r[|r| - 1])
  {
    if |s| > 0 && IsPunctuation(s[|s| - 1]) then StripEnd(s[..|s| - 1]) else s
  }

  /** Python's `s.strip(string.punctuation)`: the longest middle part of
      `s` that neither starts nor ends with punctuation, all of what is
      cut off on either side being punctuation. */
  function StripPunctuation(s: string): (r: string)
    ensures exists i :: CutAt(s, r, i)
    ensures |r| > 0 ==> !IsPunctuation(r[0]) && !IsPunctuation(r[|r| - 1])
  {
    StripCut(s);
    StripEnd(StripStart(s))
  }

  lemma StripCut(s: string)
    ensures CutAt(s, StripEnd(StripStart(s)), |s| - |StripStart(s)|)
  {
    var t := StripStart(s);
    CutInside(s, t, StripEnd(t), |s| - |t|);
  }

  /** Cutting punctuation off the front and then off the back is one cut. */
  lemma CutInside(s: string, t: string, r: string, i: int)
    requires 0 <= i <= |s| && t == s[i..] && AllPunctuation(s[..i])
    requires |r| <= |t| && r == t[..|r|] && AllPunctuation(t[|r|..])
    ensures CutAt(s, r, i)
  {
    assert s[i..i + |r|] == t[..|r|];
    assert s[i + |r|..] == t[|r|..];
  }

  /** `r` is the part of `s` starting at `i`, and only punctuation lies
      before and after it. */
  predicate CutAt(s: string, r: string, i: int) {
    && 0 <= i <= |s| - |r|
    && r == s[i..i + |r|]
    && AllPunctuation(s[..i])
    && AllPunctuation(s[i + |r|..])
  }

  /** Stripping punctuation padding off a word that neither starts nor
      ends with punctuation gives the word back. */
  lemma StripPadded(pre: string, w: string, post: string)
    requires AllPunctuation(pre) && AllPunctuation(post)
    requires |w| > 0 && !IsPunctuation(w[0]) && !IsPunctuation(w[|w| - 1])
    ensures StripPunctuation(pre + w + post) == w
  {
    var s := pre + w + post;
    var r := StripPunctuation(s);
    var i :| CutAt(s, r, i);
    var a := |pre|;
    var b := |pre| + |w|;
    var e := i + |r|;
    assert s[a] == w[0] && s[b - 1] == w[|w| - 1];
    forall k | 0 <= k < a ensures IsPunctuation(s[k]) {
      assert s[k] == pre[k];
    }
    forall k | b <= k < |s| ensures IsPunctuation(s[k]) {
      assert s[k] == post[k - b];
    }
    PrefixPunctuation(s, i);
    SuffixPunctuation(s, e);
    assert |r| > 0;
    assert r[0] == s[i] && r[|r| - 1] == s[e - 1];
    assert i == a;
    assert e == b;
    assert s[a..b] == w;
  }

  lemma PrefixPunctuation(s: string, i: int)
    requires 0 <= i <= |s| && AllPunctuation(s[..i])
    ensures forall k :: 0 <= k < i ==> IsPunctuation(s[k])
  {
    forall k | 0 <= k < i ensures IsPunctuation(s[k]) {
      assert s[..i][k] == s[k];
    }
  }

  lemma SuffixPunctuation(s: string, j: int)
    requires 0 <= j <= |s| && AllPunctuation(s[j..])
    ensures forall k :: j <= k < |s| ==> IsPunctuation(s[k])
  {
    forall k | j <= k < |s| ensures IsPunctuation(s[k]) {
      assert s[j..][k - j] == s[k];
    }
  }

  /** Stripping twice strips nothing more. */
  lemma StripPunctuationIdempotent(s: string)
    ensures StripPunctuation(StripPunctuation(s)) == StripPunctuation(s)
  {
    var r := StripPunctuation(s);
    StripStartClean(r);
    StripEndClean(r);
  }

  lemma StripStartClean(r: string)
    requires |r| == 0 || !IsPunctuation(r[0])
    ensures StripStart(r) == r
  {
  }

  lemma StripEndClean(r: string)
    requires |r| == 0 || !IsPunctuation(r[|r| - 1])
    ensures StripEnd(r) == r
  {
  }

  /** Python's `str.lower()` on one character, for every character whose
      lower-case form is ASCII: `A`-`Z`, and U+212A KELVIN SIGN, which
      lower-cases to `k`. Other characters are kept; whatever Python maps
      them to is not ASCII either. */
  function LowerChar(c: char): char {
    if 'A' <= c <= 'Z' then (c as int + 32) as char
    else if c == '\U{212a}' then 'k'
    else c
  }

  predicate IsUpperAscii(c: char) {
    'A' <= c <= 'Z'
  }

  /** Python's `s.lower()`, character by character. */
  function Lower(s: string): (r: string)
    ensures |r| == |s|
    ensures forall i :: 0 <= i < |s| ==> r[i] == LowerChar(s[i])
    ensures forall i :: 0 <= i < |r| ==> !IsUpperAscii(r[i]) && r[i] != '\U{212a}'
  {
    if |s| == 0 then "" else [LowerChar(s[0])] + Lower(s[1..])
  }

  /** Lower-casing is idempotent. */
  lemma LowerIdempotent(s: string)
    ensures Lower(Lower(s)) == Lower(s)
  {
    var l := Lower(s);
    var ll := Lower(l);
    assert forall i :: 0 <= i < |l| ==> ll[i] == l[i];
  }

  /** A string with no upper-case ASCII letter and no Kelvin sign is its
      own lower-case form. */
  lemma LowerOfLower(s: string)
    requires forall i :: 0 <= i < |s| ==> !IsUpperAscii(s[i]) && s[i] != '\U{212a}'
    ensures Lower(s) == s
  {
    var l := Lower(s);
    assert forall i :: 0 <= i < |s| ==> l[i] == s[i];
  }

  /** Python's `t in s` for strings: `t` occurs in `s` as a contiguous
      substring. */
  function Contains(s: string, t: string): (b: bool)
    ensures b <==> exists i :: OccursAt(s, t, i)
    decreases |s|
  {
    if |t| > |s| then false
    else if s[..|t|] == t then assert OccursAt(s, t, 0); true
    else
      var b := Contains(s[1..], t);
      assert forall i :: OccursAt(s, t, i) ==> i > 0 && OccursAt(s[1..], t, i - 1);
      assert b ==> exists i :: OccursAt(s, t, i) by {
        if b {
          var j :| OccursAt(s[1..], t, j);
          assert OccursAt(s, t, j + 1);
        }
      }
      b
  }

  /** `t` occurs in `s` starting at index `i`. */
  predicate OccursAt(s: string, t: string, i: int) {
    0 <= i <= |s| - |t| && s[i..i + |t|] == t
  }

  predicate StartsWith(s: string, p: string) {
    |p| <= |s| && s[..|p|] == p
  }

  predicate EndsWith(s: string, p: string) {
    |p| <= |s| && s[|s| - |p|..] == p
  }

  /** Python's `s * n`: `n` copies of `s`, and the empty string when
      `n <= 0`. */
  function Repeat(s: string, n: int): (r: string)
    ensures |r| == if n <= 0 then 0 else n * |s|
    ensures forall i :: 0 <= i < |r| ==> r[i] in s
    ensures |s| > 0 ==> forall i :: 0 <= i < |r| ==> r[i] == s[i % |s|]
    decreases n
  {
    if n <= 0 then ""
    else
      var rest := Repeat(s, n - 1);
      if |s| > 0 then RepeatStep(s, rest); s + rest else s + rest
  }

  /** One more copy in front keeps every character at its place in the
      cycle of `s`. */
  lemma RepeatStep(s: string, rest: string)
    requires |s| > 0
    requires forall i :: 0 <= i < |rest| ==> rest[i] == s[i % |s|]
    ensures forall i :: 0 <= i < |s + rest| ==> (s + rest)[i] == s[i % |s|]
  {
    forall i | 0 <= i < |s + rest| ensures (s + rest)[i] == s[i % |s|] {
      if i >= |s| {
        ModShift(i, |s|);
        assert (s + rest)[i] == rest[i - |s|];
      }
    }
  }

  /** Stepping back by the modulus leaves the remainder alone. */
  lemma ModShift(i: int, m: int)
    requires 0 < m <= i
    ensures (i - m) % m == i % m
  {
    var q, r := i / m, i % m;
    assert i == m * q + r;
    assert i - m == m * (q - 1) + r;
    ModUnique(i - m, m, q - 1, r);
  }

  /** The remainder is the one `r` in `[0, m)` with `x == m * q + r`. */
  lemma ModUnique(x: int, m: int, q: int, r: int)
    requires m > 0 && 0 <= r < m && x == m * q + r
    ensures x % m == r
  {
    var q0, r0 := x / m, x % m;
    assert x == m * q0 + r0;
    assert m * (q0 - q) == r - r0;
    MulSmall(m, q0 - q);
  }

  lemma MulSmall(m: int, k: int)
    requires m > 0 && -m < m * k < m
    ensures k == 0
  {
  }

  /** Repetition counts add up. */
  lemma {:induction false} RepeatAdd(s: string, a: nat, b: nat)
    ensures Repeat(s, a + b) == Repeat(s, a) + Repeat(s, b)
    decreases a
  {
    if a > 0 {
      RepeatAdd(s, a - 1, b);
      assert Repeat(s, a + b) == s + Repeat(s, a - 1 + b);
    }
  }
}

=== FILE: resolution.dfy ===
/** The operator dialogue of `handle_bad_word` (html_spell.py:98-130),
    as a function of the sequence of answers the operator types, and the
    word sets it changes. */
module Resolution {
  import opened Optional
  import opened PyStr

  /** The four answers the prompt offers. */
  datatype Choice = Add | Skip | Edit | Close

  /** Reads one answer: the full word or its first letter in any case, or
      the numeral exactly; anything else is not an answer and the prompt
      is shown again. */
  function ParseResponse(response: string): (c: Option<Choice>)
    ensures c == Some(Add) <==> Lower(response) == "add" || Lower(response) == "a" || response == "1"
    ensures c == Some(Skip) <==> Lower(response) == "skip" || Lower(response) == "s" || response == "2"
    ensures c == Some(Edit) <==> Lower(response) == "edit" || Lower(response) == "e" || response == "3"
    ensures c == Some(Close) <==> Lower(response) == "close" || Lower(response) == "c" || response == "4"
    ensures c.None? <==> Lower(response) !in {"add", "a", "skip", "s", "edit", "e", "close", "c"}
                         && response !in {"1", "2", "3", "4"}
    ensures c.Some? ==> 1 <= |response| <= 5
  {
    Pick(Lower(response), response)
  }

  /** The comparisons of the prompt loop, given the lower-cased answer
      `l` and the answer as typed. */
  function Pick(l: string, response: string): Option<Choice> {
    if l == "add" || l == "a" || response == "1" then Some(Add)
    else if l == "skip" || l == "s" || response == "2" then Some(Skip)
    else if l == "edit" || l == "e" || response == "3" then Some(Edit)
    else if l == "close" || l == "c" || response == "4" then Some(Close)
    else None
  }

  /** Only the numerals are compared without lower-casing, and lower-
      casing leaves a numeral alone, so an answer means the same as its
      lower-case form. */
  lemma ParseResponseIgnoresCase(response: string)
    ensures ParseResponse(Lower(response)) == ParseResponse(response)
  {
    var l := Lower(response);
    LowerIdempotent(response);
    LowerNumeral(response, '1');
    LowerNumeral(response, '2');
    LowerNumeral(response, '3');
    LowerNumeral(response, '4');
    assert Pick(l, response) == Pick(l, l);
  }

  /** An answer lower-cases to a digit exactly when it is that digit. */
  lemma LowerNumeral(response: string, d: char)
    requires '0' <= d <= '9'
    ensures Lower(response) == [d] <==> response == [d]
  {
    var l := Lower(response);
    if |response| == 1 {
      assert l[0] == LowerChar(response[0]);
      assert l == [l[0]] && response == [response[0]];
    }
  }

  /** Upper-case and lower-case spellings of the words are accepted,
      including the Kelvin sign, which Python lower-cases to `k`. */
  lemma AcceptedSpellings()
    ensures ParseResponse("ADD") == Some(Add)
    ensures ParseResponse("s\U{212a}ip") == Some(Skip)
    ensures ParseResponse("E") == Some(Edit)
  {
    assert Lower("ADD") == "add";
    assert Lower("s\U{212a}ip") == "skip";
    assert Lower("E") == "e";
  }

  /** The one-letter answers. */
  lemma OneLetterAnswers()
    ensures ParseResponse("a") == Some(Add)
    ensures ParseResponse("s") == Some(Skip)
    ensures ParseResponse("e") == Some(Edit)
    ensures ParseResponse("c") == Some(Close)
  {
    assert Lower("a") == "a";
    assert Lower("s") == "s";
    assert Lower("e") == "e";
    assert Lower("c") == "c";
  }

  /** The empty answer, a padded numeral and other numerals are rejected. */
  lemma RejectedSpellings()
    ensures ParseResponse("") == None
    ensures ParseResponse(" 1") == None
    ensures ParseResponse("5") == None
  {
    assert Lower(" 1") == " 1";
    assert Lower("5") == "5";
  }

  /** The known-word set (`word_set`) and the words approved in this
      session (`added_words`). */
  datatype Store = Store(words: set<string>, added: set<string>) {

    /** The Add answer: the word goes into both sets. */
    function Approve(w: string): (s: Store)
      ensures w in s.words && w in s.added
      ensures s.words - words <= {w} && s.added - added <= {w}
      ensures words <= s.words && added <= s.added
    {
      Store(words + {w}, added + {w})
    }
  }

  /** How a step of the scan ended: carry on, restart after an edit of
      the file, stop at the operator's request (`exit(0)`), or stop
      because the operator's input ran out (`input()` raises EOFError). */
  datatype Signal = Continue | Restart(word: string) | Closed | Exhausted

  /** The outcome of a step: the signal, the word sets afterwards, the
      answers not yet read, and the words the operator was asked about,
      in order. */
  datatype Step = Step(signal: Signal, store: Store, responses: seq<string>, prompted: seq<string>)

  /** Position of the first answer the prompt accepts, if any. */
  function FirstAnswer(rs: seq<string>): (r: Option<nat>)
    ensures r.Some? ==> r.value < |rs| && ParseResponse(rs[r.value]).Some?
    ensures r.Some? ==> forall j :: 0 <= j < r.value ==> ParseResponse(rs[j]).None?
    ensures r.None? ==> forall j :: 0 <= j < |rs| ==> ParseResponse(rs[j]).None?
  {
    if |rs| == 0 then None
    else if ParseResponse(rs[0]).Some? then Some(0)
    else match FirstAnswer(rs[1..])
      case None => None
      case Some(k) => Some(k + 1)
  }

  /** What an accepted answer does to the word sets and the scan. */
  function Answer(c: Choice, w: string, store: Store, rest: seq<string>): (r: Step)
    ensures r.prompted == [w] && r.responses == rest
    ensures r.store == store || r.store == store.Approve(w)
  {
    match c
    case Add => Step(Continue, store.Approve(w), rest, [w])
    case Skip => Step(Continue, store, rest, [w])
    case Edit => Step(Restart(w), store, rest, [w])
    case Close => Step(Closed, store, rest, [w])
  }

  /** `handle_bad_word(w)`: prompts until an accepted answer is read; the
      first accepted answer decides, and every answer before it is
      rejected and re-prompted. */
  function Resolve(w: string, store: Store, rs: seq<string>): (r: Step)
    ensures r.prompted == [w]
    ensures r.store == store || r.store == store.Approve(w)
    ensures |r.responses| <= |rs| && r.responses == rs[|rs| - |r.responses|..]
    ensures r.signal.Restart? ==> |r.responses| < |rs|
    decreases |rs|
  {
    if |rs| == 0 then Step(Exhausted, store, [], [w])
    else match ParseResponse(rs[0])
      case None =>
        var r := Resolve(w, store, rs[1..]);
        TailSuffix(rs, |r.responses|);
        r
      case Some(c) => Answer(c, w, store, rs[1..])
  }

  /** A suffix of the answers after the first is a suffix of all of
      them. */
  lemma TailSuffix(rs: seq<string>, m: nat)
    requires 0 < |rs| && m < |rs|
    ensures rs[1..][|rs| - 1 - m..] == rs[|rs| - m..]
  {
  }

  /** The first accepted answer decides; when there is none the input
      runs out. */
  lemma {:induction false} ResolveByFirstAnswer(w: string, store: Store, rs: seq<string>)
    ensures FirstAnswer(rs).None? ==> Resolve(w, store, rs) == Step(Exhausted, store, [], [w])
    ensures FirstAnswer(rs).Some? ==>
              var k := FirstAnswer(rs).value;
              Resolve(w, store, rs) == Answer(ParseResponse(rs[k]).value, w, store, rs[k + 1..])
    decreases |rs|
  {
    if |rs| > 0 && ParseResponse(rs[0]).None? {
      ResolveByFirstAnswer(w, store, rs[1..]);
      if FirstAnswer(rs[1..]).Some? {
        var k := FirstAnswer(rs[1..]).value;
        assert rs[1..][k] == rs[k + 1];
        assert rs[1..][k + 1..] == rs[k + 2..];
      }
    }
  }

  /** Answers the prompt does not accept change nothing: the dialogue
      goes on as if they had not been typed. */
  lemma {:induction false} RejectedAnswersIgnored(w: string, store: Store, junk: seq<string>, rs: seq<string>)
    requires forall j :: 0 <= j < |junk| ==> ParseResponse(junk[j]).None?
    ensures Resolve(w, store, junk + rs) == Resolve(w, store, rs)
    decreases |junk|
  {
    if |junk| > 0 {
      assert (junk + rs)[0] == junk[0];
      assert (junk + rs)[1..] == junk[1..] + rs;
      RejectedAnswersIgnored(w, store, junk[1..], rs);
    } else {
      assert junk + rs == rs;
    }
  }

  /** The effect of each answer on the word sets: Add puts the word into
      both sets, every other answer leaves them alone; Edit asks for a
      restart on that word, Close stops. */
  lemma AnswerEffects(w: string, store: Store, r: string, rest: seq<string>)
    ensures ParseResponse(r) == Some(Add) ==>
              Resolve(w, store, [r] + rest) == Step(Continue, Store(store.words + {w}, store.added + {w}), rest, [w])
    ensures ParseResponse(r) == Some(Skip) ==> Resolve(w, store, [r] + rest) == Step(Continue, store, rest, [w])
    ensures ParseResponse(r) == Some(Edit) ==> Resolve(w, store, [r] + rest) == Step(Restart(w), store, rest, [w])
    ensures ParseResponse(r) == Some(Close) ==> Resolve(w, store, [r] + rest).signal == Closed
  {
    assert ([r] + rest)[1..] == rest;
  }
}

=== FILE: scanner.dfy ===
/** One pass of `spellCheckFile` over the lines of the file
    (html_spell.py:65-90): the `<code>` line filter, the words of the
    lines that are fed to the parser, and `checkWord`'s lookup and prompt
    for each of them (html_spell.py:141-156). */
module Scanner {
  import opened Optional
  import opened PyStr
  import opened Classifier
  import opened Resolution
  import opened Tokenizer

  /** What a run depends on besides the file and the answers: strict mode
      (`-s`), the Oxford lookup (true for HTTP status 200), and the text
      fragments the HTML parser hands to `handle_data` for a line. */
  datatype Env = Env(strict: bool, oxford: string -> bool, fragments: string -> seq<string>)

  /** The operator is asked about `w`: it reaches the lookup, and its
      lower-case form is neither a known word nor in the Oxford
      dictionary. */
  predicate Unknown(env: Env, words: set<string>, w: string) {
    var form := Classify(w, env.strict);
    form.Some? && form.value !in words && !env.oxford(form.value)
  }

  /** The answers left after a step are a suffix of those given, and a
      restart has read at least one answer. */
  predicate Consumes(rs: seq<string>, after: Step) {
    && |after.responses| <= |rs|
    && after.responses == rs[|rs| - |after.responses|..]
    && (after.signal.Restart? ==> |after.responses| < |rs|)
  }

  /** What a step may do to the word sets: words are only ever added,
      each new word is also recorded as approved, and each newly approved
      word is a lower-case lookup form the Oxford dictionary rejected and
      that was not known before; the operator is only asked about such
      forms. */
  predicate Grows(env: Env, before: Store, after: Step) {
    && before.words <= after.store.words
    && before.added <= after.store.added
    && (forall w :: w in after.store.words && w !in before.words ==> w in after.store.added)
    && (forall w :: w in after.store.added && w !in before.added ==>
          w in after.store.words && w !in before.words && IsLookupForm(w) && !env.oxford(w))
    && (forall k :: 0 <= k < |after.prompted| ==>
          IsLookupForm(after.prompted[k]) && !env.oxford(after.prompted[k]) && after.prompted[k] !in before.words)
  }

  /** `checkWord(w)`: the operator is asked exactly when the word is
      unknown, and then about its lower-case form; otherwise nothing
      changes. */
  function CheckWord(env: Env, w: string, store: Store, rs: seq<string>): (r: Step)
    ensures Consumes(rs, r)
    ensures Unknown(env, store.words, w) ==> r.prompted == [Classify(w, env.strict).value]
    ensures !Unknown(env, store.words, w) ==> r == Step(Continue, store, rs, [])
  {
    var form := Classify(w, env.strict);
    if form.Some? && form.value !in store.words && !env.oxford(form.value) then
      Resolve(form.value, store, rs)
    else
      Step(Continue, store, rs, [])
  }

  /** A word that reaches the prompt grows the word sets only by itself,
      and only on Add. */
  lemma CheckWordGrows(env: Env, w: string, store: Store, rs: seq<string>)
    ensures Grows(env, store, CheckWord(env, w, store, rs))
  {
    var r := CheckWord(env, w, store, rs);
    if Unknown(env, store.words, w) {
      var form := Classify(w, env.strict).value;
      assert r == Resolve(form, store, rs);
      if r.store == store {
        GrowsByNothing(env, store, r);
      } else {
        GrowsByApproval(env, store, form, r);
      }
    } else {
      GrowsByNothing(env, store, r);
    }
  }

  lemma GrowsByNothing(env: Env, store: Store, r: Step)
    requires r.store == store
    requires forall k :: 0 <= k < |r.prompted| ==>
               IsLookupForm(r.prompted[k]) && !env.oxford(r.prompted[k]) && r.prompted[k] !in store.words
    ensures Grows(env, store, r)
  {
  }

  lemma GrowsByApproval(env: Env, store: Store, form: string, r: Step)
    requires IsLookupForm(form) && !env.oxford(form) && form !in store.words
    requires r.store == store.Approve(form) && r.prompted == [form]
    ensures Grows(env, store, r)
  {
  }

  /** The result of running `next` after `first`. */
  function Then(first: Step, next: Step): Step {
    Step(next.signal, next.store, next.responses, first.prompted + next.prompted)
  }

  lemma ConsumesThen(rs: seq<string>, first: Step, next: Step)
    requires Consumes(rs, first)
    requires Consumes(first.responses, next)
    ensures Consumes(rs, Then(first, next))
  {
    var r := Then(first, next);
    var rs1 := first.responses;
    assert rs1[|rs1| - |r.responses|..] == rs[|rs| - |r.responses|..];
  }

  lemma GrowsThen(env: Env, s0: Store, first: Step, next: Step)
    requires Grows(env, s0, first)
    requires Grows(env, first.store, next)
    ensures Grows(env, s0, Then(first, next))
  {
    var r := Then(first, next);
    forall k | 0 <= k < |r.prompted|
      ensures IsLookupForm(r.prompted[k]) && !env.oxford(r.prompted[k]) && r.prompted[k] !in s0.words
    {
      if k < |first.prompted| {
        assert r.prompted[k] == first.prompted[k];
      } else {
        assert r.prompted[k] == next.prompted[k - |first.prompted|];
      }
    }
  }

  /** A run of words checked one after the other with the step `f`; the
      first step that does not end in Continue ends the run. */
  function Fold(f: (string, Store, seq<string>) -> Step, ws: seq<string>, store: Store, rs: seq<string>): Step
    decreases |ws|
  {
    if |ws| == 0 then Step(Continue, store, rs, [])
    else
      var first := f(ws[0], store, rs);
      if first.signal != Continue then first
      else Then(first, Fold(f, ws[1..], first.store, first.responses))
  }

  lemma {:induction false} FoldConsumes(f: (string, Store, seq<string>) -> Step, ws: seq<string>, store: Store, rs: seq<string>)
    requires forall w, s, r :: Consumes(r, f(w, s, r))
    ensures Consumes(rs, Fold(f, ws, store, rs))
    decreases |ws|
  {
    if |ws| > 0 {
      var first := f(ws[0], store, rs);
      if first.signal == Continue {
        FoldConsumes(f, ws[1..], first.store, first.responses);
        ConsumesThen(rs, first, Fold(f, ws[1..], first.store, first.responses));
      }
    }
  }

  lemma {:induction false} FoldGrows(env: Env, f: (string, Store, seq<string>) -> Step, ws: seq<string>, store: Store, rs: seq<string>)
    requires forall w, s, r :: Grows(env, s, f(w, s, r))
    ensures Grows(env, store, Fold(f, ws, store, rs))
    decreases |ws|
  {
    if |ws| > 0 {
      var first := f(ws[0], store, rs);
      if first.signal == Continue {
        FoldGrows(env, f, ws[1..], first.store, first.responses);
        GrowsThen(env, store, first, Fold(f, ws[1..], first.store, first.responses));
      }
    }
  }

  lemma {:induction false} FoldAppend(f: (string, Store, seq<string>) -> Step, a: seq<string>, b: seq<string>, store: Store, rs: seq<string>)
    ensures Fold(f, a + b, store, rs) ==
              var s := Fold(f, a, store, rs);
              if s.signal != Continue then s else Then(s, Fold(f, b, s.store, s.responses))
    decreases |a|
  {
    if |a| == 0 {
      assert a + b == b;
    } else {
      assert (a + b)[0] == a[0];
      assert (a + b)[1..] == a[1..] + b;
      var first := f(a[0], store, rs);
      if first.signal == Continue {
        FoldAppend(f, a[1..], b, first.store, first.responses);
        var s := Fold(f, a[1..], first.store, first.responses);
        if s.signal == Continue {
          var t := Fold(f, b, s.store, s.responses);
          assert first.prompted + (s.prompted + t.prompted) == (first.prompted + s.prompted) + t.prompted;
        }
      }
    }
  }

  /** `checkWord` as a step of the fold. */
  function WordStep(env: Env): (string, Store, seq<string>) -> Step {
    (w, s, r) => CheckWord(env, w, s, r)
  }

  /** The words of the fragments of the fed lines checked one after the
      other, as `handle_data` does. */
  function CheckWords(env: Env, ws: seq<string>, store: Store, rs: seq<string>): (r: Step)
    ensures Consumes(rs, r)
  {
    FoldConsumes(WordStep(env), ws, store, rs);
    Fold(WordStep(env), ws, store, rs)
  }

  /** Over a run of words the word sets grow as `Grows` allows. */
  lemma CheckWordsGrows(env: Env, ws: seq<string>, store: Store, rs: seq<string>)
    ensures Grows(env, store, CheckWords(env, ws, store, rs))
  {
    forall w, s, r ensures Grows(env, s, WordStep(env)(w, s, r)) {
      CheckWordGrows(env, w, s, r);
    }
    FoldGrows(env, WordStep(env), ws, store, rs);
  }

  /** Checking two runs of words is checking the first, then, if it went
      on, the second from where the first left off. */
  lemma CheckWordsAppend(env: Env, a: seq<string>, b: seq<string>, store: Store, rs: seq<string>)
    ensures CheckWords(env, a + b, store, rs) ==
              var s := CheckWords(env, a, store, rs);
              if s.signal != Continue then s else Then(s, CheckWords(env, b, s.store, s.responses))
  {
    FoldAppend(WordStep(env), a, b, store, rs);
  }

  /** When no word is unknown, nothing is asked and nothing changes. */
  lemma CheckWordsAllKnown(env: Env, ws: seq<string>, store: Store, rs: seq<string>)
    requires forall k :: 0 <= k < |ws| ==> !Unknown(env, store.words, ws[k])
    ensures CheckWords(env, ws, store, rs) == Step(Continue, store, rs, [])
  {
    FoldAllKnown(env, ws, store, rs);
  }

  lemma {:induction false} FoldAllKnown(env: Env, ws: seq<string>, store: Store, rs: seq<string>)
    requires forall k :: 0 <= k < |ws| ==> !Unknown(env, store.words, ws[k])
    ensures Fold(WordStep(env), ws, store, rs) == Step(Continue, store, rs, [])
    decreases |ws|
  {
    if |ws| > 0 {
      assert WordStep(env)(ws[0], store, rs) == Step(Continue, store, rs, []);
      FoldAllKnown(env, ws[1..], store, rs);
    }
  }

  /** The forms the operator is asked about when every answer is Skip:
      the unknown words, in order, repeats included. */
  function UnknownForms(env: Env, words: set<string>, ws: seq<string>): (r: seq<string>)
    ensures |r| <= |ws|
  {
    if |ws| == 0 then []
    else if Unknown(env, words, ws[0]) then [Classify(ws[0], env.strict).value] + UnknownForms(env, words, ws[1..])
    else UnknownForms(env, words, ws[1..])
  }

  predicate AllSkip(rs: seq<string>) {
    forall k :: 0 <= k < |rs| ==> ParseResponse(rs[k]) == Some(Skip)
  }

  /** Answering Skip every time: the operator is asked about exactly the
      unknown words, one answer each, and the word sets stay as they
      were. */
  lemma SkippingAsksAboutEveryUnknown(env: Env, ws: seq<string>, store: Store, rs: seq<string>)
    requires AllSkip(rs) && |UnknownForms(env, store.words, ws)| <= |rs|
    ensures CheckWords(env, ws, store, rs) ==
              Step(Continue, store, rs[|UnknownForms(env, store.words, ws)|..], UnknownForms(env, store.words, ws))
  {
    FoldSkipping(env, ws, store, rs);
  }

  lemma {:induction false} FoldSkipping(env: Env, ws: seq<string>, store: Store, rs: seq<string>)
    requires AllSkip(rs) && |UnknownForms(env, store.words, ws)| <= |rs|
    ensures Fold(WordStep(env), ws, store, rs) ==
              Step(Continue, store, rs[|UnknownForms(env, store.words, ws)|..], UnknownForms(env, store.words, ws))
    decreases |ws|
  {
    if |ws| == 0 {
      assert rs[0..] == rs;
    } else if Unknown(env, store.words, ws[0]) {
      assert AllSkip(rs[1..]) by {
        assert forall k :: 0 <= k < |rs| - 1 ==> rs[1..][k] == rs[k + 1];
      }
      FoldSkipping(env, ws[1..], store, rs[1..]);
      SkippedUnknown(env, ws, store, rs);
    } else {
      FoldSkipping(env, ws[1..], store, rs);
      SkippedKnown(env, ws, store, rs);
    }
  }

  lemma SkippedUnknown(env: Env, ws: seq<string>, store: Store, rs: seq<string>)
    requires |ws| > 0 && Unknown(env, store.words, ws[0])
    requires |rs| > 0 && ParseResponse(rs[0]) == Some(Skip)
    requires |UnknownForms(env, store.words, ws)| <= |rs|
    requires Fold(WordStep(env), ws[1..], store, rs[1..]) ==
               Step(Continue, store, rs[1..][|UnknownForms(env, store.words, ws[1..])|..], UnknownForms(env, store.words, ws[1..]))
    ensures Fold(WordStep(env), ws, store, rs) ==
              Step(Continue, store, rs[|UnknownForms(env, store.words, ws)|..], UnknownForms(env, store.words, ws))
  {
    SkipStep(env, ws[0], store, rs);
    var n := |UnknownForms(env, store.words, ws)|;
    assert rs[1..][n - 1..] == rs[n..];
  }

  lemma SkippedKnown(env: Env, ws: seq<string>, store: Store, rs: seq<string>)
    requires |ws| > 0 && !Unknown(env, store.words, ws[0])
    requires |UnknownForms(env, store.words, ws[1..])| <= |rs|
    requires Fold(WordStep(env), ws[1..], store, rs) ==
               Step(Continue, store, rs[|UnknownForms(env, store.words, ws[1..])|..], UnknownForms(env, store.words, ws[1..]))
    ensures Fold(WordStep(env), ws, store, rs) ==
              Step(Continue, store, rs[|UnknownForms(env, store.words, ws)|..], UnknownForms(env, store.words, ws))
  {
    assert WordStep(env)(ws[0], store, rs) == Step(Continue, store, rs, []);
  }

  lemma SkipStep(env: Env, w: string, store: Store, rs: seq<string>)
    requires Unknown(env, store.words, w) && |rs| > 0 && ParseResponse(rs[0]) == Some(Skip)
    ensures WordStep(env)(w, store, rs) == Step(Continue, store, rs[1..], [Classify(w, env.strict).value])
  {
    var form := Classify(w, env.strict).value;
    assert rs == [rs[0]] + rs[1..];
    AnswerEffects(form, store, rs[0], rs[1..]);
  }

  /** Once the operator adds a word, a later word with the same lookup
      form is not asked about again: it reads no answer and changes
      nothing. */
  lemma ApprovedWordAskedOnce(env: Env, w: string, later: string, store: Store, r: string, rest: seq<string>)
    requires Unknown(env, store.words, w) && ParseResponse(r) == Some(Add)
    requires Classify(later, env.strict) == Classify(w, env.strict)
    ensures var first := CheckWord(env, w, store, [r] + rest);
            && first.signal == Continue && first.responses == rest
            && CheckWord(env, later, first.store, rest) == Step(Continue, first.store, rest, [])
  {
    var form := Classify(w, env.strict).value;
    AnswerEffects(form, store, r, rest);
  }

  /** `"<code>" in line` and `"</code>" in line`. */
  predicate OpensCode(line: string) {
    Contains(line, "<code>")
  }

  predicate ClosesCode(line: string) {
    Contains(line, "</code>")
  }

  /** `code_tag_on` once the first `n` lines have been read. */
  function CodeFlag(lines: seq<string>, n: nat): bool
    requires n <= |lines|
  {
    if n == 0 then false
    else if ClosesCode(lines[n - 1]) then false
    else if OpensCode(lines[n - 1]) then true
    else CodeFlag(lines, n - 1)
  }

  /** Line `j` opens a code block that no line up to `n` closes. */
  predicate OpenBlock(lines: seq<string>, j: nat, n: nat)
    requires n <= |lines|
  {
    j < n && OpensCode(lines[j]) && forall k :: j <= k < n ==> !ClosesCode(lines[k])
  }

  /** The code flag is on exactly when some line opened a code block and
      no line since, that line included, closes one. */
  lemma {:induction false} CodeFlagOpenBlock(lines: seq<string>, n: nat)
    requires n <= |lines|
    ensures CodeFlag(lines, n) <==> exists j :: OpenBlock(lines, j, n)
    decreases n
  {
    if n > 0 {
      var m := n - 1;
      CodeFlagOpenBlock(lines, m);
      if ClosesCode(lines[m]) {
      } else if OpensCode(lines[m]) {
        assert OpenBlock(lines, m, n);
      } else {
        if CodeFlag(lines, m) {
          var j :| OpenBlock(lines, j, m);
          assert OpenBlock(lines, j, n);
        } else {
          forall j | OpenBlock(lines, j, n) ensures OpenBlock(lines, j, m) {
          }
        }
      }
    }
  }

  /** Line `i` is fed to the parser: it holds neither tag and the flag is
      off. A line holding both tags is not fed. */
  predicate IsFed(lines: seq<string>, i: nat)
    requires i < |lines|
  {
    !ClosesCode(lines[i]) && !OpensCode(lines[i]) && !CodeFlag(lines, i)
  }

  /** The words of one line: those of every fragment the parser hands
      over for it. */
  function LineWords(env: Env, line: string): seq<string> {
    FragmentsWords(env.fragments(line))
  }

  /** The words of the fed lines from line `i` on, in order. */
  function FedWords(env: Env, lines: seq<string>, i: nat): seq<string>
    requires i <= |lines|
    decreases |lines| - i
  {
    if i == |lines| then []
    else (if IsFed(lines, i) then LineWords(env, lines[i]) else []) + FedWords(env, lines, i + 1)
  }

  /** The loop of `spellCheckFile` from line `i` on, with `on` the value
      of `code_tag_on` before that line. */
  function ScanFrom(env: Env, lines: seq<string>, i: nat, on: bool, store: Store, rs: seq<string>): (r: Step)
    requires i <= |lines|
    ensures Consumes(rs, r)
    decreases |lines| - i
  {
    if i == |lines| then Step(Continue, store, rs, [])
    else
      var line := lines[i];
      var flag := if OpensCode(line) then true else on;
      if ClosesCode(line) then ScanFrom(env, lines, i + 1, false, store, rs)
      else if flag then ScanFrom(env, lines, i + 1, flag, store, rs)
      else
        var first := CheckWords(env, LineWords(env, line), store, rs);
        if first.signal != Continue then first
        else
          var next := ScanFrom(env, lines, i + 1, flag, first.store, first.responses);
          ConsumesThen(rs, first, next);
          Then(first, next)
  }

  /** One pass over the file, after `reset()`, with the code flag off. */
  function ScanFile(env: Env, lines: seq<string>, store: Store, rs: seq<string>): (r: Step)
    ensures Consumes(rs, r)
    ensures r == CheckWords(env, FedWords(env, lines, 0), store, rs)
  {
    ScanFromChecksFedWords(env, lines, 0, store, rs);
    ScanFrom(env, lines, 0, false, store, rs)
  }

  /** Reading line by line with the flag is checking, in one run, the
      words of exactly the lines `IsFed` selects. */
  lemma {:induction false} ScanFromChecksFedWords(env: Env, lines: seq<string>, i: nat, store: Store, rs: seq<string>)
    requires i <= |lines|
    ensures ScanFrom(env, lines, i, CodeFlag(lines, i), store, rs) == CheckWords(env, FedWords(env, lines, i), store, rs)
    decreases |lines| - i, 1
  {
    if i < |lines| {
      if IsFed(lines, i) {
        FedLineStep(env, lines, i, store, rs);
      } else {
        SkippedLineStep(env, lines, i, store, rs);
      }
    }
  }

  lemma {:induction false} FedLineStep(env: Env, lines: seq<string>, i: nat, store: Store, rs: seq<string>)
    requires i < |lines| && IsFed(lines, i)
    ensures ScanFrom(env, lines, i, CodeFlag(lines, i), store, rs) == CheckWords(env, FedWords(env, lines, i), store, rs)
    decreases |lines| - i, 0
  {
    var first := CheckWords(env, LineWords(env, lines[i]), store, rs);
    ScanFromChecksFedWords(env, lines, i + 1, first.store, first.responses);
    CheckWordsAppend(env, LineWords(env, lines[i]), FedWords(env, lines, i + 1), store, rs);
    assert !CodeFlag(lines, i + 1);
  }

  lemma {:induction false} SkippedLineStep(env: Env, lines: seq<string>, i: nat, store: Store, rs: seq<string>)
    requires i < |lines| && !IsFed(lines, i)
    ensures ScanFrom(env, lines, i, CodeFlag(lines, i), store, rs) == CheckWords(env, FedWords(env, lines, i), store, rs)
    decreases |lines| - i, 0
  {
    ScanFromChecksFedWords(env, lines, i + 1, store, rs);
    SkippedLineFlag(env, lines, i, store, rs);
    SkippedLineWords(env, lines, i);
  }

  /** A line that is not fed adds no words. */
  lemma SkippedLineWords(env: Env, lines: seq<string>, i: nat)
    requires i < |lines| && !IsFed(lines, i)
    ensures FedWords(env, lines, i) == FedWords(env, lines, i + 1)
  {
    var later := FedWords(env, lines, i + 1);
    assert [] + later == later;
  }

  /** A line that is not fed leaves the loop where `CodeFlag` says the
      next line starts. */
  lemma SkippedLineFlag(env: Env, lines: seq<string>, i: nat, store: Store, rs: seq<string>)
    requires i < |lines| && !IsFed(lines, i)
    ensures ScanFrom(env, lines, i, CodeFlag(lines, i), store, rs) == ScanFrom(env, lines, i + 1, CodeFlag(lines, i + 1), store, rs)
  {
    if ClosesCode(lines[i]) {
      assert !CodeFlag(lines, i + 1);
    } else if OpensCode(lines[i]) {
      assert CodeFlag(lines, i + 1);
    } else {
      assert CodeFlag(lines, i) && CodeFlag(lines, i + 1);
    }
  }

  /** A word of two or more lower-case letters. */
  predicate PlainWord(w: string) {
    |w| >= 2 && forall k :: 0 <= k < |w| ==> 'a' <= w[k] <= 'z'
  }

  /** A plain word is its own lookup form, is one word of its own
      fragment, and holds neither code tag. */
  lemma PlainWordFacts(w: string, strict: bool)
    requires PlainWord(w)
    ensures Classify(w, strict) == Some(w)
    ensures FragmentWords(w) == [w]
    ensures !OpensCode(w) && !ClosesCode(w)
  {
    PlainWordClassified(w, strict);
    PlainWordFragment(w);
    NoTagInPlainWord(w, "<code>");
    NoTagInPlainWord(w, "</code>");
  }

  lemma PlainWordClassified(w: string, strict: bool)
    requires PlainWord(w)
    ensures Classify(w, strict) == Some(w)
  {
    WordsReachLookup(w, strict);
    LowerOfLower(w);
  }

  lemma PlainWordFragment(w: string)
    requires PlainWord(w)
    ensures FragmentWords(w) == [w]
  {
    PlainWordShape(w);
    var none: string := [];
    assert none + w + none == w;
    PunctuatedWord(none, w, none);
  }

  lemma PlainWordShape(w: string)
    requires PlainWord(w)
    ensures '-' !in w && NoSpace(w) && !IsPunctuation(w[0]) && !IsPunctuation(w[|w| - 1])
  {
  }

  lemma NoTagInPlainWord(w: string, tag: string)
    requires PlainWord(w) && |tag| > 0 && tag[0] == '<'
    ensures !Contains(w, tag)
  {
    forall i | 0 <= i <= |w| - |tag| ensures !OccursAt(w, tag, i) {
      assert w[i..i + |tag|][0] == w[i] != tag[0];
    }
  }

  /** A file of one line that holds no code tag is checked as the words
      of that line. */
  lemma OneLineFile(env: Env, line: string, store: Store, rs: seq<string>)
    requires !OpensCode(line) && !ClosesCode(line)
    ensures ScanFile(env, [line], store, rs) == CheckWords(env, LineWords(env, line), store, rs)
  {
    assert IsFed([line], 0);
    assert FedWords(env, [line], 0) == LineWords(env, line) + [];
    assert LineWords(env, line) + [] == LineWords(env, line);
  }

  /** Checking a run of one word is checking that word. */
  lemma CheckOneWord(env: Env, w: string, store: Store, rs: seq<string>)
    ensures CheckWords(env, [w], store, rs) == CheckWord(env, w, store, rs)
  {
    var first := CheckWord(env, w, store, rs);
    assert WordStep(env)(w, store, rs) == first;
    assert [w][1..] == [];
    var next := Fold(WordStep(env), [], first.store, first.responses);
    assert next == Step(Continue, first.store, first.responses, []);
    assert first.prompted + [] == first.prompted;
    assert Fold(WordStep(env), [w], store, rs) == if first.signal != Continue then first else Then(first, next);
  }

  /** A file whose one line is a plain word the parser hands over as it
      stands is checked as that word, under that form. */
  lemma PlainWordFile(env: Env, w: string, store: Store, rs: seq<string>)
    requires PlainWord(w) && env.fragments(w) == [w]
    ensures ScanFile(env, [w], store, rs) == CheckWord(env, w, store, rs)
    ensures Classify(w, env.strict) == Some(w)
  {
    PlainWordFacts(w, env.strict);
    OneLineFile(env, w, store, rs);
    assert [w][1..] == [];
    assert LineWords(env, w) == FragmentWords(w) + FragmentsWords([]);
    assert LineWords(env, w) == [w];
    CheckOneWord(env, w, store, rs);
  }

  /** A one-line file holding an unknown plain word asks about it. */
  lemma UnknownPlainWordAsked(env: Env, w: string, store: Store, rs: seq<string>)
    requires PlainWord(w) && env.fragments(w) == [w]
    requires w !in store.words && !env.oxford(w)
    ensures ScanFile(env, [w], store, rs) == Resolve(w, store, rs)
  {
    PlainWordFile(env, w, store, rs);
  }

  /** A one-line file holding a known plain word passes untouched. */
  lemma KnownPlainWordPasses(env: Env, w: string, store: Store, rs: seq<string>)
    requires PlainWord(w) && env.fragments(w) == [w] && w in store.words
    ensures ScanFile(env, [w], store, rs) == Step(Continue, store, rs, [])
  {
    PlainWordFile(env, w, store, rs);
  }
}

=== FILE: session.dfy ===
/** A whole run of the spell checker on one file (html_spell.py:204-229):
    loading the dictionaries, passes over the file repeated after every
    edit (html_spell.py:89-90), the words appended to the custom
    dictionary, and the exit status. */
module Session {
  import opened PyStr
  import opened Classifier
  import opened Resolution
  import opened Dictionary
  import opened Scanner

  /** `SPELL_ERROR`, the status of a finished run under `-e`. */
  const SpellError: int := 2

  /** The status Python gives a run that ends in an uncaught exception. */
  const UncaughtException: int := 1

  /** The operator's editor session (`vimdiff`, html_spell.py:122-126):
      the file it leaves, given the file, the word the operator chose to
      edit, and how many edits came before this one. */
  type Editor = (seq<string>, string, nat) -> seq<string>

  /** Passes over the file until one ends without an edit; `edits` edits
      came before the first of them. After an edit the file is read
      again as `edit` left it, with the code flag off and both word sets
      as the previous pass left them. */
  function Settle(env: Env, edit: Editor, doc: seq<string>, edits: nat, store: Store, rs: seq<string>): (r: Step)
    ensures Consumes(rs, r)
    ensures !r.signal.Restart?
    decreases |rs|
  {
    var first := ScanFile(env, doc, store, rs);
    if first.signal.Restart? then
      var next := Settle(env, edit, edit(doc, first.signal.word, edits), edits + 1, first.store, first.responses);
      ConsumesThen(rs, first, next);
      Then(first, next)
    else first
  }

  /** Across edits and passes the word sets grow only by approvals of
      unknown forms. */
  lemma {:induction false} SettleGrows(env: Env, edit: Editor, doc: seq<string>, edits: nat, store: Store, rs: seq<string>)
    ensures Grows(env, store, Settle(env, edit, doc, edits, store, rs))
    decreases |rs|
  {
    var first := ScanFile(env, doc, store, rs);
    CheckWordsGrows(env, FedWords(env, doc, 0), store, rs);
    if first.signal.Restart? {
      var next := Settle(env, edit, edit(doc, first.signal.word, edits), edits + 1, first.store, first.responses);
      SettleGrows(env, edit, edit(doc, first.signal.word, edits), edits + 1, first.store, first.responses);
      GrowsThen(env, store, first, next);
    }
  }

  /** After an edit the whole edited file is scanned again from its first
      line, with the word sets and the answers the edited pass left and
      the edit count one higher; the forms asked about are those of the
      edited pass followed by those of the rescans. A pass without an
      edit ends the run. */
  lemma EditedDocumentRescanned(env: Env, edit: Editor, doc: seq<string>, edits: nat, store: Store, rs: seq<string>)
    ensures var first := ScanFile(env, doc, store, rs);
            var r := Settle(env, edit, doc, edits, store, rs);
            && (!first.signal.Restart? ==> r == first)
            && (first.signal.Restart? ==>
                  var rest := Settle(env, edit, edit(doc, first.signal.word, edits), edits + 1, first.store, first.responses);
                  && r.signal == rest.signal && r.store == rest.store && r.responses == rest.responses
                  && r.prompted == first.prompted + rest.prompted)
  {
  }

  /** Why a run stopped with an exception: a blank custom dictionary line
      (IndexError) or the end of the operator's input (EOFError). */
  datatype Crash = BlankDictionaryLine(index: nat) | InputExhausted

  datatype Status = Finished | ClosedByOperator | Crashed(crash: Crash)

  /** How a run ended, its exit status, the words appended to the custom
      dictionary, and the forms the operator was asked about. */
  datatype Outcome = Outcome(status: Status, exitCode: int, appended: set<string>, prompted: seq<string>)

  /** A run on the file `doc` with the structured dictionary's keys
      `keys`, the custom dictionary lines `custom`, the flag `-e` as
      `exitError`, and the operator's answers `rs`. */
  function RunSession(env: Env, keys: set<string>, custom: seq<string>, doc: seq<string>,
                      edit: Editor, exitError: bool, rs: seq<string>): (o: Outcome)
    ensures o.status == Finished ==> (o.exitCode == SpellError <==> exitError) && (o.exitCode == 0 <==> !exitError)
    ensures o.status == ClosedByOperator ==> o.exitCode == 0
    ensures o.status.Crashed? ==> o.exitCode == UncaughtException
    ensures o.status != Finished ==> o.appended == {}
    ensures LoadDictionary(keys, custom).BlankLine? <==> o.status.Crashed? && o.status.crash.BlankDictionaryLine?
  {
    match LoadDictionary(keys, custom)
    case BlankLine(i) => Outcome(Crashed(BlankDictionaryLine(i)), UncaughtException, {}, [])
    case Loaded(words) =>
      var r := Settle(env, edit, doc, 0, Store(words, {}), rs);
      if r.signal == Closed then Outcome(ClosedByOperator, 0, {}, r.prompted)
      else if r.signal == Exhausted then Outcome(Crashed(InputExhausted), UncaughtException, {}, r.prompted)
      else Outcome(Finished, if exitError then SpellError else 0, r.store.added, r.prompted)
  }

  /** Once the dictionaries load, the run ends as its passes do: closed
      by the operator exactly when a pass read `close`, crashed on the
      end of input exactly when the answers ran out, and otherwise
      finished, appending exactly the words approved in any pass. */
  lemma RunSessionFollowsScan(env: Env, keys: set<string>, custom: seq<string>, doc: seq<string>,
                              edit: Editor, exitError: bool, rs: seq<string>)
    requires LoadDictionary(keys, custom).Loaded?
    ensures var r := Settle(env, edit, doc, 0, Store(LoadDictionary(keys, custom).words, {}), rs);
            var o := RunSession(env, keys, custom, doc, edit, exitError, rs);
            && (r.signal == Closed <==> o.status == ClosedByOperator)
            && (r.signal == Exhausted <==> o.status == Crashed(InputExhausted))
            && (r.signal == Continue <==> o.status == Finished)
            && (o.status == Finished ==> o.appended == r.store.added)
            && o.prompted == r.prompted
  {
  }

  /** Every word appended at the end of a run was approved by the
      operator: it is a lower-case lookup form, it was in neither
      dictionary, and the Oxford lookup rejected it. */
  lemma ApprovedWordsWereUnknown(env: Env, keys: set<string>, custom: seq<string>, doc: seq<string>,
                                 edit: Editor, exitError: bool, rs: seq<string>)
    requires LoadDictionary(keys, custom).Loaded?
    ensures var known := LoadDictionary(keys, custom).words;
            forall w :: w in RunSession(env, keys, custom, doc, edit, exitError, rs).appended ==>
              w !in known && IsLookupForm(w) && !env.oxford(w)
  {
    var words := LoadDictionary(keys, custom).words;
    var r := Settle(env, edit, doc, 0, Store(words, {}), rs);
    assert RunSession(env, keys, custom, doc, edit, exitError, rs).appended <= r.store.added;
    SettleGrows(env, edit, doc, 0, Store(words, {}), rs);
    GrownFromNothing(env, words, r);
  }

  /** Every form the operator was asked about was unknown: a lower-case
      lookup form in neither dictionary that the Oxford lookup
      rejected. */
  lemma PromptedFormsWereUnknown(env: Env, keys: set<string>, custom: seq<string>, doc: seq<string>,
                                 edit: Editor, exitError: bool, rs: seq<string>)
    requires LoadDictionary(keys, custom).Loaded?
    ensures var known := LoadDictionary(keys, custom).words;
            var prompted := RunSession(env, keys, custom, doc, edit, exitError, rs).prompted;
            forall k :: 0 <= k < |prompted| ==>
              prompted[k] !in known && IsLookupForm(prompted[k]) && !env.oxford(prompted[k])
  {
    var words := LoadDictionary(keys, custom).words;
    var r := Settle(env, edit, doc, 0, Store(words, {}), rs);
    assert RunSession(env, keys, custom, doc, edit, exitError, rs).prompted == r.prompted;
    SettleGrows(env, edit, doc, 0, Store(words, {}), rs);
    GrownFromNothing(env, words, r);
  }

  /** What a run that started with no approvals approved or asked about
      was unknown at the start. */
  lemma GrownFromNothing(env: Env, words: set<string>, r: Step)
    requires Grows(env, Store(words, {}), r)
    ensures forall w :: w in r.store.added ==> w !in words && IsLookupForm(w) && !env.oxford(w)
    ensures forall k :: 0 <= k < |r.prompted| ==>
              r.prompted[k] !in words && IsLookupForm(r.prompted[k]) && !env.oxford(r.prompted[k])
  {
  }

  /** The dictionary a later run loads, after the words of a finished run
      were appended in any order, is the old one plus exactly those
      words. */
  lemma ApprovedWordsPersist(env: Env, keys: set<string>, custom: seq<string>, doc: seq<string>,
                             edit: Editor, exitError: bool, rs: seq<string>,
                             order: seq<string>)
    requires LoadDictionary(keys, custom).Loaded?
    requires RunSession(env, keys, custom, doc, edit, exitError, rs).status == Finished
    requires (set k | 0 <= k < |order| :: order[k]) == RunSession(env, keys, custom, doc, edit, exitError, rs).appended
    ensures LoadDictionary(keys, custom + AppendedLines(order))
         == Loaded(LoadDictionary(keys, custom).words + RunSession(env, keys, custom, doc, edit, exitError, rs).appended)
  {
    var o := RunSession(env, keys, custom, doc, edit, exitError, rs);
    ApprovedWordsWereUnknown(env, keys, custom, doc, edit, exitError, rs);
    forall k | 0 <= k < |order| ensures IsLookupForm(order[k]) {
      assert order[k] in o.appended;
    }
    ReloadAfterAppend(keys, custom, order);
  }

  /** A file none of whose fed words is unknown finishes without a prompt,
      without reading any answer, and appends nothing. */
  lemma CleanFileFinishes(env: Env, keys: set<string>, custom: seq<string>, doc: seq<string>,
                          edit: Editor, exitError: bool, rs: seq<string>)
    requires LoadDictionary(keys, custom).Loaded?
    requires forall k :: 0 <= k < |FedWords(env, doc, 0)| ==>
               !Unknown(env, LoadDictionary(keys, custom).words, FedWords(env, doc, 0)[k])
    ensures RunSession(env, keys, custom, doc, edit, exitError, rs)
         == Outcome(Finished, if exitError then SpellError else 0, {}, [])
  {
    var words := LoadDictionary(keys, custom).words;
    var store := Store(words, {});
    var ws := FedWords(env, doc, 0);
    CheckWordsAllKnown(env, ws, store, rs);
  }

  /** A run whose passes went on to the end finishes and appends what
      they approved. */
  lemma FinishedRun(env: Env, keys: set<string>, custom: seq<string>, doc: seq<string>,
                    edit: Editor, exitError: bool, rs: seq<string>, words: set<string>, r: Step)
    requires LoadDictionary(keys, custom) == Loaded(words)
    requires Settle(env, edit, doc, 0, Store(words, {}), rs) == r && r.signal == Continue
    ensures RunSession(env, keys, custom, doc, edit, exitError, rs)
         == Outcome(Finished, if exitError then SpellError else 0, r.store.added, r.prompted)
  {
  }

  /** A one-line file holding an unknown plain word, answered `a`: the
      word is asked about once, appended, and the run finishes. */
  lemma UnknownWordAdded(env: Env, keys: set<string>, w: string, edit: Editor, exitError: bool)
    requires PlainWord(w) && env.fragments(w) == [w] && w !in keys && !env.oxford(w)
    ensures RunSession(env, keys, [], [w], edit, exitError, ["a"])
         == Outcome(Finished, if exitError then SpellError else 0, {w}, [w])
  {
    var store := Store(keys, {});
    var done := Step(Continue, Store(keys + {w}, {w}), [], [w]);
    assert Settle(env, edit, [w], 0, store, ["a"]) == done by {
      assert ["a"] == ["a"] + [];
      AddAnswered(env, w, store, []);
      assert {} + {w} == {w};
      EditedDocumentRescanned(env, edit, [w], 0, store, ["a"]);
    }
    EmptyCustomDictionary(keys);
    FinishedRun(env, keys, [], [w], edit, exitError, ["a"], keys, done);
  }

  /** An unknown plain word answered `a` is approved and its pass goes
      on. */
  lemma AddAnswered(env: Env, w: string, store: Store, rest: seq<string>)
    requires PlainWord(w) && env.fragments(w) == [w] && w !in store.words && !env.oxford(w)
    ensures ScanFile(env, [w], store, ["a"] + rest) == Step(Continue, Store(store.words + {w}, store.added + {w}), rest, [w])
  {
    OneLetterAnswers();
    UnknownPlainWordAsked(env, w, store, ["a"] + rest);
    AnswerEffects(w, store, "a", rest);
  }

  /** Without a custom dictionary the known words are the structured
      dictionary's keys. */
  lemma EmptyCustomDictionary(keys: set<string>)
    ensures LoadDictionary(keys, []) == Loaded(keys)
  {
    assert CustomWords([]) == {};
    assert keys + {} == keys;
  }

  /** The same file with the corrected spelling `fixed` known, answered
      `e` twice: the first editor session leaves the file as it was, so
      the word is asked about again; the second corrects it, the rescan
      finds nothing unknown, and nothing is appended. */
  lemma EditedUntilFixed(env: Env, keys: set<string>, w: string, fixed: string, edit: Editor, exitError: bool)
    requires PlainWord(w) && env.fragments(w) == [w] && w !in keys && !env.oxford(w)
    requires PlainWord(fixed) && env.fragments(fixed) == [fixed] && fixed in keys
    requires edit([w], w, 0) == [w] && edit([w], w, 1) == [fixed]
    ensures RunSession(env, keys, [], [w], edit, exitError, ["e", "e"])
         == Outcome(Finished, if exitError then SpellError else 0, {}, [w, w])
  {
    var store := Store(keys, {});
    var done := Step(Continue, store, [], [w, w]);
    assert Settle(env, edit, [fixed], 2, store, []) == Step(Continue, store, [], []) by {
      KnownPlainWordPasses(env, fixed, store, []);
      EditedDocumentRescanned(env, edit, [fixed], 2, store, []);
    }
    assert Settle(env, edit, [w], 1, store, ["e"]) == Step(Continue, store, [], [w]) by {
      assert ["e"] == ["e"] + [];
      EditAnswered(env, w, store, []);
      EditedDocumentRescanned(env, edit, [w], 1, store, ["e"]);
    }
    assert Settle(env, edit, [w], 0, store, ["e", "e"]) == done by {
      assert ["e", "e"] == ["e"] + ["e"];
      EditAnswered(env, w, store, ["e"]);
      EditedDocumentRescanned(env, edit, [w], 0, store, ["e", "e"]);
    }
    EmptyCustomDictionary(keys);
    FinishedRun(env, keys, [], [w], edit, exitError, ["e", "e"], keys, done);
  }

  /** An unknown plain word answered `e` ends its pass with an edit of
      that word. */
  lemma EditAnswered(env: Env, w: string, store: Store, rest: seq<string>)
    requires PlainWord(w) && env.fragments(w) == [w] && w !in store.words && !env.oxford(w)
    ensures ScanFile(env, [w], store, ["e"] + rest) == Step(Restart(w), store, rest, [w])
  {
    OneLetterAnswers();
    UnknownPlainWordAsked(env, w, store, ["e"] + rest);
    AnswerEffects(w, store, "e", rest);
  }

  /** `helo` in an empty dictionary, answered `a`, is appended. */
  lemma AddedWordAppended(env: Env, edit: Editor, exitError: bool)
    requires env.fragments("helo") == ["helo"] && !env.oxford("helo")
    ensures RunSession(env, {}, [], ["helo"], edit, exitError, ["a"])
         == Outcome(Finished, if exitError then SpellError else 0, {"helo"}, ["helo"])
  {
    assert PlainWord("helo");
    UnknownWordAdded(env, {}, "helo", edit, exitError);
  }

  /** `helo` with `hello` known: an edit that changes nothing, then one
      that corrects it. */
  lemma EditThenFixed(env: Env, edit: Editor, exitError: bool)
    requires env.fragments("helo") == ["helo"] && env.fragments("hello") == ["hello"] && !env.oxford("helo")
    requires edit(["helo"], "helo", 0) == ["helo"] && edit(["helo"], "helo", 1) == ["hello"]
    ensures RunSession(env, {"hello"}, [], ["helo"], edit, exitError, ["e", "e"])
         == Outcome(Finished, if exitError then SpellError else 0, {}, ["helo", "helo"])
  {
    assert PlainWord("helo") && PlainWord("hello") && "helo" != "hello";
    EditedUntilFixed(env, {"hello"}, "helo", "hello", edit, exitError);
  }
}

=== FILE: tokenizer.dfy ===
/** `handle_data` (html_spell.py:158-179): how one text fragment handed
    over by the HTML parser becomes the sequence of words given to
    `checkWord`. */
module Tokenizer {
  import opened PyStr

  /** A fragment whose first white-space separated token is `{%` and whose
      last is `%}` is a template tag and is not checked at all. */
  predicate IsTemplateTag(tokens: seq<string>) {
    |tokens| > 0 && tokens[0] == "{%" && tokens[|tokens| - 1] == "%}"
  }

  /** The words one token yields. A token with a hyphen is split on every
      hyphen as it stands, punctuation and all; any other token has its
      leading and trailing punctuation stripped (the white-space strip
      after it has nothing left to remove). */
  function TokenWords(token: string): (ws: seq<string>)
    requires NoSpace(token)
    ensures '-' in token ==> |ws| >= 2 && Join(ws, '-') == token
    ensures '-' in token ==> forall k :: 0 <= k < |ws| ==> '-' !in ws[k]
    ensures '-' !in token ==> |ws| == 1 && exists i :: CutAt(token, ws[0], i)
    ensures '-' !in token && |ws[0]| > 0 ==> !IsPunctuation(ws[0][0]) && !IsPunctuation(ws[0][|ws[0]| - 1])
    ensures forall k :: 0 <= k < |ws| ==> NoSpace(ws[k])
  {
    if '-' in token then
      SplitOnSeparated(token, '-');
      JoinSplitOn(token, '-');
      SplitPiecesNoSpace(token);
      SplitOn(token, '-')
    else
      [StripPunctuation(token)]
  }

  /** The hyphen-split pieces of a token are parts of it, so they hold no
      white space either. */
  lemma SplitPiecesNoSpace(token: string)
    requires NoSpace(token)
    ensures forall k :: 0 <= k < |SplitOn(token, '-')| ==> NoSpace(SplitOn(token, '-')[k])
    decreases |token|
  {
    var n := IndexOf(token, '-');
    if n < |token| {
      assert NoSpace(token[n + 1..]);
      SplitPiecesNoSpace(token[n + 1..]);
    }
  }

  /** The words of a run of tokens, in order. */
  function TokensWords(tokens: seq<string>): (ws: seq<string>)
    requires forall k :: 0 <= k < |tokens| ==> NoSpace(tokens[k])
    ensures |ws| >= |tokens|
    ensures forall k :: 0 <= k < |ws| ==> NoSpace(ws[k])
  {
    if |tokens| == 0 then [] else TokenWords(tokens[0]) + TokensWords(tokens[1..])
  }

  /** `handle_data(data)`: the words handed to `checkWord`, in order. */
  function FragmentWords(data: string): (ws: seq<string>)
    ensures IsTemplateTag(Split(data)) ==> ws == []
    ensures !IsTemplateTag(Split(data)) ==> |ws| >= |Split(data)|
    ensures forall k :: 0 <= k < |ws| ==> NoSpace(ws[k])
  {
    var tokens := Split(data);
    if IsTemplateTag(tokens) then [] else TokensWords(tokens)
  }

  /** The words of all fragments of one line, in order. */
  function FragmentsWords(fragments: seq<string>): (ws: seq<string>)
    ensures forall k :: 0 <= k < |ws| ==> NoSpace(ws[k])
  {
    if |fragments| == 0 then [] else FragmentWords(fragments[0]) + FragmentsWords(fragments[1..])
  }

  /** The words of two runs of fragments are the words of the first run
      followed by those of the second. */
  lemma {:induction false} FragmentsWordsAppend(a: seq<string>, b: seq<string>)
    ensures FragmentsWords(a + b) == FragmentsWords(a) + FragmentsWords(b)
    decreases |a|
  {
    if |a| == 0 {
      assert a + b == b;
    } else {
      assert (a + b)[1..] == a[1..] + b;
      FragmentsWordsAppend(a[1..], b);
    }
  }

  /** A single fragment gives exactly its own words. */
  lemma FragmentsWordsSingle(f: string)
    ensures FragmentsWords([f]) == FragmentWords(f)
  {
    assert [f][1..] == [];
  }

  /** Splitting on white space and on hyphens: a hyphenated compound is
      checked piece by piece, exactly the pieces it was joined from. */
  lemma HyphenatedCompound(parts: seq<string>)
    requires |parts| >= 2
    requires forall k :: 0 <= k < |parts| ==> '-' !in parts[k] && NoSpace(parts[k])
    ensures FragmentWords(Join(parts, '-')) == parts
  {
    var token := Join(parts, '-');
    SepInJoin(parts, '-');
    JoinNoSpace(parts, '-');
    HyphenToken(token);
    SplitOnJoin(parts, '-');
  }

  /** The words of a fragment that is a single token with a hyphen: the
      pieces of its hyphen split, unstripped. */
  lemma HyphenToken(token: string)
    requires NoSpace(token) && '-' in token
    ensures FragmentWords(token) == SplitOn(token, '-')
  {
    SplitOfWord(token);
    assert !IsTemplateTag([token]);
    assert [token][1..] == [];
    assert TokensWords([token]) == TokenWords(token) + TokensWords([]);
  }

  /** Joining white-space free pieces with a non-space separator gives a
      white-space free string. */
  lemma JoinNoSpace(parts: seq<string>, sep: char)
    requires !IsSpace(sep)
    requires forall k :: 0 <= k < |parts| ==> NoSpace(parts[k])
    ensures NoSpace(Join(parts, sep))
    decreases |parts|
  {
    if |parts| >= 2 {
      JoinNoSpace(parts[1..], sep);
    }
  }

  /** A token without hyphen is checked as the word inside its
      punctuation padding. */
  lemma PunctuatedWord(pre: string, w: string, post: string)
    requires AllPunctuation(pre) && AllPunctuation(post)
    requires '-' !in pre && '-' !in w && '-' !in post
    requires |w| > 0 && NoSpace(w) && !IsPunctuation(w[0]) && !IsPunctuation(w[|w| - 1])
    ensures FragmentWords(pre + w + post) == [w]
  {
    var token := pre + w + post;
    PaddedToken(pre, w, post);
    SplitOfWord(token);
    StripPadded(pre, w, post);
    OneToken(token);
  }

  lemma PaddedToken(pre: string, w: string, post: string)
    requires AllPunctuation(pre) && AllPunctuation(post)
    requires '-' !in pre && '-' !in w && '-' !in post
    requires |w| > 0 && NoSpace(w)
    ensures |pre + w + post| > 0 && NoSpace(pre + w + post) && '-' !in pre + w + post
  {
    var token := pre + w + post;
    forall k | 0 <= k < |token| ensures !IsSpace(token[k]) {
      if k < |pre| {
        assert token[k] == pre[k];
      } else if k < |pre| + |w| {
        assert token[k] == w[k - |pre|];
      } else {
        assert token[k] == post[k - |pre| - |w|];
      }
    }
  }

  /** The words of a fragment that is a single token without hyphen. */
  lemma OneToken(token: string)
    requires |token| > 0 && NoSpace(token) && '-' !in token && Split(token) == [token]
    ensures FragmentWords(token) == [StripPunctuation(token)]
  {
    assert !IsTemplateTag([token]);
    assert [token][1..] == [];
    assert TokensWords([token]) == TokenWords(token) + TokensWords([]);
  }

  /** Tokens are treated one at a time, so the words of two runs of
      tokens are the words of each. */
  lemma {:induction false} TokensWordsAppend(a: seq<string>, b: seq<string>)
    requires forall k :: 0 <= k < |a| ==> NoSpace(a[k])
    requires forall k :: 0 <= k < |b| ==> NoSpace(b[k])
    ensures TokensWords(a + b) == TokensWords(a) + TokensWords(b)
    decreases |a|
  {
    if |a| == 0 {
      assert a + b == b;
    } else {
      assert (a + b)[1..] == a[1..] + b;
      TokensWordsAppend(a[1..], b);
    }
  }

  /** A single token gives exactly its own words. */
  lemma TokensWordsSingle(t: string)
    requires NoSpace(t)
    ensures TokensWords([t]) == TokenWords(t)
  {
    assert [t][1..] == [];
  }

  /** A fragment that is no template tag, split at a white-space
      character into two parts that are not template tags either, gives
      the words of the first part followed by those of the second: every
      token is checked once, in the order it appears. */
  lemma FragmentWordsAtSpace(a: string, sp: char, b: string)
    requires IsSpace(sp)
    requires !IsTemplateTag(Split(a)) && !IsTemplateTag(Split(b)) && !IsTemplateTag(Split(a + [sp] + b))
    ensures FragmentWords(a + [sp] + b) == FragmentWords(a) + FragmentWords(b)
  {
    SplitAtSpace(a, sp, b);
    TokensWordsAppend(Split(a), Split(b));
  }

  /** Two punctuated words separated by a space are checked as the two
      bare words, first to last. */
  lemma TwoWordFragment()
    ensures FragmentWords("Hello, world!") == ["Hello", "world"]
  {
    var w1, p1, w2, p2 := "Hello", ",", "world", "!";
    assert w1 + p1 + [' '] + w2 + p2 == "Hello, world!";
    TwoPaddedWords(w1, p1, w2, p2);
  }

  /** Two words, each followed by punctuation, with a space between them
      give the two bare words in order. */
  lemma TwoPaddedWords(w1: string, p1: string, w2: string, p2: string)
    requires AllPunctuation(p1) && AllPunctuation(p2) && '-' !in p1 && '-' !in p2
    requires |w1| > 0 && '-' !in w1 && NoSpace(w1) && !IsPunctuation(w1[0]) && !IsPunctuation(w1[|w1| - 1])
    requires |w2| > 0 && '-' !in w2 && NoSpace(w2) && !IsPunctuation(w2[0]) && !IsPunctuation(w2[|w2| - 1])
    ensures FragmentWords(w1 + p1 + [' '] + w2 + p2) == [w1, w2]
  {
    var a, b := w1 + p1, w2 + p2;
    assert Split(a) == [a] && FragmentWords(a) == [w1] by {
      PaddedWordToken(w1, p1);
    }
    assert Split(b) == [b] && FragmentWords(b) == [w2] by {
      PaddedWordToken(w2, p2);
    }
    assert a != "{%" by {
      assert a[0] == w1[0];
    }
    TwoTokens(w1 + p1 + [' '] + w2 + p2, a, b);
    assert [w1] + [w2] == [w1, w2];
  }

  /** Two tokens with a space between them that do not open a template
      tag give the words of the first, then those of the second. */
  lemma TwoTokens(s: string, a: string, b: string)
    requires s == a + [' '] + b
    requires Split(a) == [a] && Split(b) == [b] && a != "{%"
    ensures FragmentWords(s) == FragmentWords(a) + FragmentWords(b)
  {
    SplitAtSpace(a, ' ', b);
    FragmentWordsAtSpace(a, ' ', b);
  }

  /** A word followed by punctuation is one token, checked as the word. */
  lemma PaddedWordToken(w: string, p: string)
    requires AllPunctuation(p) && '-' !in p
    requires |w| > 0 && '-' !in w && NoSpace(w) && !IsPunctuation(w[0]) && !IsPunctuation(w[|w| - 1])
    ensures Split(w + p) == [w + p] && FragmentWords(w + p) == [w]
  {
    var none: string := [];
    assert none + w + p == w + p;
    PaddedToken(none, w, p);
    SplitOfWord(w + p);
    PunctuatedWord(none, w, p);
  }

  /** A hyphen anywhere sends the whole raw token to the hyphen split, so
      trailing punctuation stays on the last piece and that piece is no
      longer a word: `well-known,` yields `well` and `known,`. */
  lemma HyphenKeepsPunctuation()
    ensures FragmentWords("well-known,") == ["well", "known,"]
  {
    var w, k := "well", "known,";
    assert w + ['-'] + k == "well-known,";
    assert |w| > 0 && '-' !in w && NoSpace(w);
    assert '-' !in k && NoSpace(k);
    TwoPieces(w, k);
  }

  lemma TwoPieces(w: string, k: string)
    requires |w| > 0 && '-' !in w && NoSpace(w)
    requires '-' !in k && NoSpace(k)
    ensures FragmentWords(w + ['-'] + k) == [w, k]
  {
    var parts := [w, k];
    assert parts[1..] == [k];
    JoinCons(w, [k], '-');
    HyphenatedCompound(parts);
  }

  /** A fragment that opens with a `{%` token and closes with a `%}` token
      gives no words, whatever lies between. */
  lemma TemplateTagSkipped(body: string)
    ensures FragmentWords("{% " + body + " %}") == []
  {
    var open, close := "{%", "%}";
    BracketTokens(open, body, close);
    assert open + [' '] + body + [' '] + close == "{% " + body + " %}";
  }

  lemma BracketTokens(open: string, body: string, close: string)
    requires |open| > 0 && NoSpace(open) && |close| > 0 && NoSpace(close)
    ensures Split(open + [' '] + body + [' '] + close) == [open] + Split(body) + [close]
  {
    SplitAtSpace(open + [' '] + body, ' ', close);
    SplitAtSpace(open, ' ', body);
    SplitOfWord(open);
    SplitOfWord(close);
  }
}
